=== FILE: README.md ===
# elm-webapp addcrud patch engine, in Dafny

This project models the template-diff patch engine of `elm-webapp-addcrud`. The
command takes a type name such as `Post` and reads a unified-diff-style
template. It renames the `Foobar`/`foobar` placeholders in the template to the
type and variable names. It cuts the template into hunks and applies each hunk
to the generated application, in one of two ways:

- with no anchor, it creates a file from the hunk's added lines;
- with an anchor, it inserts the added lines into an existing, possibly
  hand-edited file. The insertion point is found by an anchor-prefix search
  followed by chained `indexOf` searches for the context lines.

The project also models two pure helpers of the Lambda handler templates,
`toQueryString` and `toLowerCaseKeys`, and the request-URL assembly around them.

The model follows the JavaScript as written. Its Dafny counterparts are:

- `indexOf` with a negative start, `findIndex`, and `Math.max()`/`Math.min()`
  of nothing (±Infinity);
- `splice` start clamping, `substring` clamping, and `split`/`join`;
- `||` truthiness, and `undefined` spelled as "undefined";
- the `$$`, `$&`, `` $` `` and `$'` patterns a `replace` expands in its
  replacement text.

Where the code misbehaves, a corrected definition sits next to the as-written
one (see Findings). The applier takes a `Resolution` argument that selects
either placement rule.

Modules, leaves first:

- `Results`: `Option` and `Result`.
- `JsString`: string primitives with JavaScript semantics.
- `JsArray`: array primitives with JavaScript semantics.
- `Renamer`: name derivation, `escapeRegExp` and `rename`.
- `HunkHeader`: `filepathFrom` and `functionLineFrom`.
- `Hunks`: the hunk record handed to `apply`.
- `TemplateParser`: the parse loop as a pure fold.
- `TemplateShape`: what the loop yields for a well-laid-out template.
- `Resolver`: `tryPatching`, as written and corrected.
- `ResolverExamples`: concrete inputs for the resolver.
- `Applier`: `apply` over a map-based filesystem, the sequential run, and the whole program.
- `ApplierExamples`: whole-file cases: creating a module and a failed patch.
- `Query`: `toQueryString` and `toLowerCaseKeys`.
- `RequestUrl`: the handlers' URL assembly.

Where the code's behaviour looks unintended or surprising, the model follows
the code:

- **Pre-flight checks.** There is no validate-everything pass. Each hunk is
  applied as soon as the loop flushes it.
- **Existing files.** A creating hunk overwrites an existing file; there is no
  "file already exists" error.
- **Missing targets.** A missing patch target fails only when that hunk is
  reached, after the earlier hunks have been written.
- **Context lookup.** The `before` context is always tried first. The two
  context lists are never compared.
- **After-branch placement.** The after branch takes its index from the
  `before` indexes.
- **Path checks.** No path is checked for `..`.
- **Path strip.** The path-strip count is the constant 2, with no override.
- **Identifier check.** The only check on the identifier is that it is non-empty.
- **Block markers.** `diff ` and `--- ` lines also fall through into
  context bucketing.
- **Path renaming.** Every hunk header renames the file path once more.
- **Empty hunks.** A hunk with no added lines is still applied.

## Model

| member | source | states |
|---|---|---|
| JsString.SubstringFrom | bin/elm-webapp-addcrud.js:28 | `substring(start)` is the suffix of length `|s| - start`, or empty when `start` is past the end |
| JsString.LastIndexOf | bin/elm-webapp-addcrud.js:28 | `lastIndexOf` is -1 or an occurrence, and no occurrence starts later |
| JsString.Split | bin/elm-webapp-addcrud.js:20 | `split` on one character is never empty, no piece holds the separator, and the first piece is the text before the first separator |
| JsString.JoinSplit | bin/elm-webapp-addcrud.js:59-61 | joining the pieces of a split with the separator gives the text back |
| JsString.SplitJoin | bin/elm-webapp-addcrud.js:56-61 | splitting separator-free pieces joined with the separator gives the pieces back |
| JsString.ReplaceAllIsSplitJoin | bin/elm-webapp-addcrud.js:114-118 | a global literal replace is splitting at the occurrences and joining with the replacement |
| JsString.JoinSplitOn | bin/elm-webapp-addcrud.js:114-118 | the occurrence-split pieces rejoined with the pattern give the line back, so the replacement touches only the occurrences |
| JsString.ReplaceAllAbsent | bin/elm-webapp-addcrud.js:114-118 | a replace whose pattern does not occur leaves the text unchanged |
| JsString.Substitute | bin/elm-webapp-addcrud.js:116-117 | a replacement text without a dollar sign is inserted as it is |
| JsString.ReplaceFromLiteral | bin/elm-webapp-addcrud.js:116-117 | a global replace whose replacement holds no dollar sign is the literal replace-all of the pattern |
| JsString.ReplaceFromAbsent | bin/elm-webapp-addcrud.js:116-117 | a global replace whose pattern does not occur leaves the text unchanged, whatever the replacement |
| JsString.ToLowerCase | templates/lambda.js:25 | `toLowerCase` keeps the length, turns each upper-case letter into its lower-case letter and keeps every other character, so it leaves no upper-case letter and is the identity on lower-case text |
| JsArray.IndexOf | bin/elm-webapp-addcrud.js:89 | `indexOf(x, from)` is the first index at or after the clamped start holding `x`, or -1 when none does |
| JsArray.IndexOfAfterMiss | bin/elm-webapp-addcrud.js:89 | after a miss the cursor is -1, and `indexOf(x, -1)` looks at the last element only |
| JsArray.FindIndex | bin/elm-webapp-addcrud.js:85 | `findIndex` is -1 exactly when no line starts with the prefix, and otherwise the first such line |
| JsArray.MathMax | bin/elm-webapp-addcrud.js:93 | `Math.max()` is -Infinity exactly for no arguments, and never +Infinity |
| JsArray.MathMaxIsMaximum | bin/elm-webapp-addcrud.js:93 | for a non-empty list `Math.max` is finite, one of the elements, and at least every element |
| JsArray.MathMinIsMinimum | bin/elm-webapp-addcrud.js:102 | for a non-empty list `Math.min` is finite, one of the elements, and at most every element |
| JsArray.SpliceStart | bin/elm-webapp-addcrud.js:93 | a `splice` start is clamped into the array: a negative start counts from the end and stops at 0, a start past the end is the end, -Infinity is 0 and +Infinity the end |
| JsArray.InsertAt | bin/elm-webapp-addcrud.js:93 | `splice(k, 0, ...items)` keeps the lines before and after `k` and puts exactly `items` between them |
| Renamer.DeriveNames | bin/elm-webapp-addcrud.js:6-16 | a missing or empty argument is the usage error; otherwise both names keep the argument's length and tail, with the first letter upper-cased for the type and lower-cased for the variable |
| Renamer.DeriveNamesStable | bin/elm-webapp-addcrud.js:15-16 | deriving again from either derived name gives the same pair |
| Renamer.Rename | bin/elm-webapp-addcrud.js:114-118 | for names without a dollar sign, `rename` is the literal replace-all of `Foobar` by the type name followed by that of `foobar` by the variable name |
| Renamer.EscapeRegExp | bin/elm-webapp-addcrud.js:110-112 | the escaped string, read as a pattern, matches exactly the original string and nothing else |
| Renamer.RenameThroughEscapedPatterns | bin/elm-webapp-addcrud.js:114-118 | the two escaped placeholders denote the placeholders literally, and `rename` is the two global regular-expression replaces in order, dollar patterns in the names expanded |
| Renamer.RenameIdentity | bin/elm-webapp-addcrud.js:114-118 | a line with neither placeholder is left unchanged, whatever the names, dollar signs included |
| Renamer.RenameSplitsAtPlaceholders | bin/elm-webapp-addcrud.js:114-118 | every `Foobar` becomes the type name, then every `foobar` in the result becomes the variable name, and all other text is kept |
| Renamer.DollarNames | bin/elm-webapp-addcrud.js:15-16 | the argument `A$&` gives the names `A$&` and `a$&` |
| Renamer.DollarTypeNameExpands | bin/elm-webapp-addcrud.js:116 | replacing `Foobar` by `A$&` gives `AFoobar`: the `$&` puts the match back |
| Renamer.DollarNameExpands | bin/elm-webapp-addcrud.js:114-118 | for the argument `A$&`, `rename` turns the line `Foobar` into `AFoobar` |
| HunkHeader.PathField | bin/elm-webapp-addcrud.js:18-20 | the path field is the header without its four-character marker, cut at the first tab |
| HunkHeader.DropSegments | bin/elm-webapp-addcrud.js:20-22 | shifting `n` split segments and rejoining keeps the text after the `n`-th slash, or "" when there are fewer |
| HunkHeader.FilepathFrom | bin/elm-webapp-addcrud.js:19-23 | `filepathFrom` keeps what follows the second slash of the path field, and gives "" for a path field without a slash |
| HunkHeader.FunctionLineFrom | bin/elm-webapp-addcrud.js:25-29 | the anchor is absent exactly when the header ends with ` @@`; otherwise it is the suffix after the last ` @@ `, or the text from index 3 when there is no delimiter |
| TemplateParser.Step | bin/elm-webapp-addcrud.js:121-146 | one line crashes exactly when it is a hunk header with no file, or an added line outside a hunk. A `diff ` or `@@ ` line hands the pending hunk to `apply`. `+++ ` leaves only the renamed path. `@@ ` opens an empty hunk with the header's anchor |
| TemplateParser.FoldAppend | bin/elm-webapp-addcrud.js:121 | a line loop over two stretches of lines is the loop over the first, continued over the second from where it stopped |
| TemplateParser.ParseFromAppend | bin/elm-webapp-addcrud.js:121-146 | the program's loop over concatenated lines continues from the state the first part left |
| TemplateParser.ParseHunkLine | bin/elm-webapp-addcrud.js:139-145 | inside a hunk, a content line only buckets itself into the current hunk |
| TemplateParser.LinesAfterBody | bin/elm-webapp-addcrud.js:139-144 | once the body is non-empty, added lines extend the body and all other lines go to `after` |
| TemplateParser.HunkLinesBucketed | bin/elm-webapp-addcrud.js:139-145 | the lines of a hunk give `before` = the unmarked context above the first added line, `body` = the renamed added lines, and `after` = the unmarked context below it; nothing is applied and nothing crashes |
| TemplateParser.LinesOutsideHunkDropped | bin/elm-webapp-addcrud.js:139-145 | lines seen before any hunk header, neither added lines nor headers, are dropped and change nothing |
| TemplateParser.QuietTemplateAppliesNothing | bin/elm-webapp-addcrud.js:121-146 | a template with neither added lines nor hunk headers leaves the loop blank and applies nothing |
| TemplateParser.Parse | bin/elm-webapp-addcrud.js:120-147 | a template without added lines and hunk headers applies nothing and does not crash; one that opens with a hunk header crashes before applying anything |
| TemplateShape.QuietLinesApplyNothing | bin/elm-webapp-addcrud.js:122-129 | the lines of a block opening after `diff ` apply nothing and never crash |
| TemplateShape.HeaderParsed | bin/elm-webapp-addcrud.js:130-138 | a hunk header read while a file path is known hands the pending hunk to `apply` and opens an empty hunk under the path renamed once more |
| TemplateShape.DiffParsed | bin/elm-webapp-addcrud.js:122-123 | a `diff ` line hands the pending hunk to `apply` and never crashes |
| TemplateShape.TargetParsed | bin/elm-webapp-addcrud.js:126-129 | a `+++ ` line leaves only the renamed target path, applying nothing |
| TemplateShape.OneHunk | bin/elm-webapp-addcrud.js:130-145 | a hunk header and its lines apply the pending hunk and leave the new one fully bucketed, with the path renamed once more |
| TemplateShape.HunksParsed | bin/elm-webapp-addcrud.js:130-145 | a run of hunks applies, in order, one record per header |
| TemplateShape.OpeningParsed | bin/elm-webapp-addcrud.js:121-129 | a block opening hands over the pending hunk and leaves only the renamed target path |
| TemplateShape.FileBodyParsed | bin/elm-webapp-addcrud.js:130-145 | after an opening that leaves a file path, the file's hunks yield their expected records |
| TemplateShape.FileParsed | bin/elm-webapp-addcrud.js:121-145 | a file block yields exactly its expected hunk records |
| TemplateShape.FilesParsed | bin/elm-webapp-addcrud.js:121-147 | a sequence of file blocks yields the concatenation of their records |
| TemplateShape.TemplateHunksInOrder | bin/elm-webapp-addcrud.js:120-147 | for a template laid out as file blocks, the program applies exactly one record per hunk header, in template order, and never crashes |
| Resolver.SearchChain | bin/elm-webapp-addcrud.js:88-91 | each chained index is -1 or a line equal to its context line, and the cursor ends at the last index |
| Resolver.ChainForward | bin/elm-webapp-addcrud.js:88-91 | when all lines are found from a non-negative start, the first index is at or after the start, and every index lies between the first index and the cursor the chain leaves |
| Resolver.ChainMonotone | bin/elm-webapp-addcrud.js:88-91 | when all lines are found from a non-negative start, the indexes never go backwards: each is at most every later one |
| Resolver.ChainSound | bin/elm-webapp-addcrud.js:88-91 | found indexes witness the context lines in order in the file, below the cursor |
| Resolver.ChainLeftmost | bin/elm-webapp-addcrud.js:88-91 | if the context occurs in order below a bound, the chain finds every line and ends below that bound |
| Resolver.SearchChainComplete | bin/elm-webapp-addcrud.js:88-92 | the chained lookup finds every line exactly when the lines occur in order at or after the start |
| Resolver.ChainFromEnd | bin/elm-webapp-addcrud.js:89 | from cursor -1 or the last line, a chain succeeds exactly when every context line equals the file's last line |
| Resolver.ChainMissCursor | bin/elm-webapp-addcrud.js:89 | after any miss the cursor is -1 or the last line |
| Resolver.InsertionPoint | bin/elm-webapp-addcrud.js:84-108 | any index the code as written produces lies within the file |
| Resolver.ChainMax | bin/elm-webapp-addcrud.js:93 | for a fully found chain, `Math.max` of the indexes is the last one |
| Resolver.MissMin | bin/elm-webapp-addcrud.js:102 | for a chain with a miss, `Math.min` of its indexes is -1 |
| Resolver.ChainFromStart | bin/elm-webapp-addcrud.js:89 | a chain started from a negative or out-of-range cursor finds what it finds from the clamped start |
| Resolver.AnchorNotFoundExactly | bin/elm-webapp-addcrud.js:85-86 | patching fails with "anchor not found" exactly when no line starts with the anchor (both placements) |
| Resolver.AfterShortestBeforePrefix | bin/elm-webapp-addcrud.js:88-93 | the before chain ends on the shortest file prefix that holds the context in order |
| Resolver.WrittenBeforeMatch | bin/elm-webapp-addcrud.js:88-95 | when the `before` lines occur in order after the anchor, the body goes right after their earliest complete occurrence |
| Resolver.WrittenEmptyBefore | bin/elm-webapp-addcrud.js:92-93 | with no `before` lines and a found anchor, the code as written inserts at the top of the file |
| Resolver.WrittenBeforeMiss | bin/elm-webapp-addcrud.js:97-107 | when the `before` lines miss, the code as written succeeds only if every `after` line equals the last line, and then inserts two lines above the end; otherwise it reports a mismatch |
| Resolver.AfterLookupFromEnd | bin/elm-webapp-addcrud.js:97-107 | the after branch, entered with cursor -1 or at the last line, matches only the last line and splices at `len - 2` |
| Resolver.AfterLookup | bin/elm-webapp-addcrud.js:97-104 | the after branch succeeds exactly when the `after` lines occur in order from where the before chain left the cursor, with an index inside the file, and otherwise reports a mismatch |
| Resolver.TryPatching | bin/elm-webapp-addcrud.js:84-108 | patching succeeds exactly when the as-written insertion point is found; the output is the input with exactly the body spliced in at that point; a failure carries the resolver's error |
| Resolver.InsertionPointIntended | bin/elm-webapp-addcrud.js:92-104 | the corrected index lies within the file |
| Resolver.AfterLeftmost | bin/elm-webapp-addcrud.js:97-100 | a found after chain starts at the first occurrence of the first `after` line, and the rest follows it in order |
| Resolver.IntendedMismatchExactly | bin/elm-webapp-addcrud.js:101-107 | the corrected patch reports a mismatch exactly when the anchor is found and neither non-empty context occurs in order after it |
| Resolver.IntendedBeforeMatch | bin/elm-webapp-addcrud.js:92-95 | the corrected patch puts the body right after the earliest complete occurrence of the `before` lines |
| Resolver.IntendedAfterMatch | bin/elm-webapp-addcrud.js:97-104 | when only the `after` lines occur, the corrected patch puts the body right above the first occurrence of the first `after` line |
| Resolver.TryPatchingIntended | bin/elm-webapp-addcrud.js:84-108 | the corrected patch succeeds exactly when the corrected insertion point is found, splices exactly the body in at that point, and otherwise fails with the corrected resolver's error |
| ResolverExamples.HandlerPatched | bin/elm-webapp-addcrud.js:84-95 | in the handler scenario the new case becomes the third line, under both placements |
| ResolverExamples.MissingAnchorFails | bin/elm-webapp-addcrud.js:85-86 | an anchor that no line starts with fails with "anchor not found" |
| ResolverExamples.AfterBranchMisplaces | bin/elm-webapp-addcrud.js:101-102 | the after branch inserts at 1 where the after line asks for 2 |
| ResolverExamples.EmptyBeforeAtTop | bin/elm-webapp-addcrud.js:92-93 | an empty `before` inserts above the module header, at 0, instead of at 2 |
| ResolverExamples.MissCursor | bin/elm-webapp-addcrud.js:89-98 | a present `after` line is missed after a `before` miss |
| Applier.Apply | bin/elm-webapp-addcrud.js:52-63 | only the hunk's path is written, a creating hunk always succeeds, and a missing patch target is the only read failure |
| Applier.Placement | bin/elm-webapp-addcrud.js:84-108 | the insertion point chosen by either placement rule lies within the file |
| Applier.Patched | bin/elm-webapp-addcrud.js:59-60 | the line-level patch succeeds exactly when the chosen rule places the body, splices it in at that point, and otherwise fails with the rule's error |
| Applier.CreateRoundTrip | bin/elm-webapp-addcrud.js:53-56 | a created file reads back as the body lines, or as one empty line for an empty body |
| Applier.PatchRoundTrip | bin/elm-webapp-addcrud.js:57-62 | a patched file reads back as the old lines with exactly the body spliced in at the insertion point of the chosen rule |
| Applier.EmptyPatchKeepsFile | bin/elm-webapp-addcrud.js:57-62 | a patch with no added lines rewrites the file to exactly its old text |
| Applier.Run | bin/elm-webapp-addcrud.js:121-147 | no file ever disappears, and any error names the path of one of the hunks |
| Applier.RunFrame | bin/elm-webapp-addcrud.js:52-63 | a path that no hunk names keeps its text and its existence |
| Applier.RunAppend | bin/elm-webapp-addcrud.js:121-147 | applying two runs of hunks is the first, then (if it got through) the second from the filesystem it left |
| Applier.RunStopsAtFailure | bin/elm-webapp-addcrud.js:71-82 | a failing hunk ends the program with its error, keeping every earlier write and applying nothing later |
| Applier.CreateOnlyRunSucceeds | bin/elm-webapp-addcrud.js:53-56 | hunks that only create files never fail |
| Applier.CreateOnlyLastWins | bin/elm-webapp-addcrud.js:56 | with creating hunks, each file holds the body of the last hunk naming it |
| Applier.AddCrud | bin/elm-webapp-addcrud.js:6-16 | the program gives the usage error exactly for an empty argument, never reports a crash after an apply error, and never removes a file |
| Applier.AddCrudTemplate | bin/elm-webapp-addcrud.js:120-147 | on a well-laid-out template the program applies exactly the expected records, in order, without crashing |
| ApplierExamples.NewFileWritten | bin/elm-webapp-addcrud.js:53-56 | creating `src/PostAPI.elm` with lines `line1`, `line2` writes exactly `line1\nline2` |
| ApplierExamples.ServerUntouched | bin/elm-webapp-addcrud.js:84-86 | an anchor missing from the handler stops the run and leaves the disk unchanged |
| Query.ToQueryString | templates/lambda.js:8-20 | the nested loops compute "" for no pairs, otherwise `?` and the encoded `k=v` pairs joined with `&`, one pair per value in key order then value order; the CRUD handler's copy at templates/crud-foobar/lambda.js:8-20 is the same |
| Query.EntriesEmpty | templates/lambda.js:10-15 | no pair is produced exactly when every value array is empty |
| Query.QueryString | templates/lambda.js:16-19 | the query string is "" exactly when there are no keys or only keys with empty arrays, and otherwise starts with `?` |
| Query.EntriesComplete | templates/lambda.js:10-14 | every value of every key produces a pair under that key |
| Query.EntriesSound | templates/lambda.js:10-14 | every pair produced is a key with one of its own values |
| Query.PairSplits | templates/lambda.js:13 | an encoded pair splits at `=` into the encoded key and value |
| Query.QueryStringRoundTrip | templates/lambda.js:13-19 | with an encoder that escapes `&` and `=` and an inverse decoder, reading the query string back gives every pair in order |
| Query.LowerCaseKeys | templates/lambda.js:22-28 | every key of the result is lower-case, and none is `__proto__`, which the assignment hands to the prototype setter |
| Query.LowerCaseKeysDomain | templates/lambda.js:22-28 | the result's keys are exactly the lower-cased input keys other than `__proto__`, and each holds the value of an input key that lower-cases to it |
| Query.LowerCaseKeysLastWins | templates/lambda.js:25 | a key other than `__proto__` keeps its value unless a later key lower-cases to the same name; the CRUD handler's copy at templates/crud-foobar/lambda.js:22-28 is the same |
| Query.ProtoHeaderDropped | templates/lambda.js:23-25 | a header named `__Proto__` lower-cases to `__proto__` and is absent from the result |
| RequestUrl.Lookup | templates/lambda.js:48-49 | a property lookup is missing exactly when no property has that name, and otherwise gives that property's value |
| RequestUrl.Proto | templates/lambda.js:48 | the scheme is the CloudFront-Forwarded-Proto header when it is non-empty, and `https` otherwise |
| RequestUrl.Url | templates/lambda.js:47-50 | the plain handler's URL starts with scheme, host and `event.path`, and anything after them starts with `?` |
| RequestUrl.UrlQueryPart | templates/lambda.js:46-50 | the plain handler's URL is scheme, host and path alone exactly when no parameter has a value; missing parameters count as `{}` |
| RequestUrl.RequestPath | templates/crud-foobar/lambda.js:49 | the request path is `path` when non-empty, else `rawPath` when non-empty, else `requestContext.http.path` as it is (`undefined` without a context); it is non-empty exactly when one of them is |
| RequestUrl.QueryStringOf | templates/crud-foobar/lambda.js:50 | with multi-value parameters the query string is `toQueryString`'s, "" exactly when no key has a value and otherwise starting with `?`; without them it is the raw query string |
| RequestUrl.CrudUrl | templates/crud-foobar/lambda.js:51-54 | the CRUD URL starts with scheme, host and request path, and is exactly those when, and only when, the query string is empty or missing |
| RequestUrl.CrudUrlDoubleMark | templates/crud-foobar/lambda.js:50-54 | on the multi-value path with a value, the URL carries `??` before the pairs |
| RequestUrl.CrudUrlIntendedAgrees | templates/crud-foobar/lambda.js:50-54 | the one-`?` URL differs from the as-written one exactly on the multi-value path with a value, and matches the plain handler's URL when `path` is set |

## Left out

- Reading the template file (line 3) is I/O. The template text is a parameter of `AddCrud`.
- Console output is not modelled. `process.exit` in the usage check and in `raiseError` becomes the `UsageError` outcome or an `ApplyError` value. The diagnostic text `raiseError` prints is not modelled.
- `mkdirSync` is implicit, because the filesystem is a map from path to text. Write failures other than a missing patch target cannot happen in the model.
- `path.sep` is fixed to `/`.
- The regular-expression engine is modelled only for patterns that denote a literal, the only ones `rename` builds; `Renamer.EscapeRegExp` shows the escaped placeholders are such patterns.
- Replacement patterns `$1`…`$99` and `$<name>` stay literal text, as they do for a pattern without capture groups.
- JsString.Substitute: its contract states only the dollar-free case; the four expansions are in its body and shown on a concrete input by `Renamer.DollarTypeNameExpands`.
- Renamer.Rename: the literal replace-all reading is stated only for names without a dollar sign; with one, `rename` expands substitution patterns (`Renamer.DollarNameExpands`).
- Renamer.RenameSplitsAtPlaceholders: the split-and-join reading is stated only for names without a dollar sign, for the same reason.
- Case mapping is ASCII only. Non-ASCII letters are left as they are.
- Strings are sequences of Unicode scalar values, while JavaScript's `length`, `substring` and `lastIndexOf` count UTF-16 code units. The two agree unless a line holds a character outside the Basic Multilingual Plane; `substring(1)` on a line starting with one keeps a lone surrogate in JavaScript.
- A JavaScript object is the sequence of its own properties in `for…in` order. The rule that integer-like keys are enumerated first is not modelled.
- Parameter values are arrays of strings. `for…in` over a non-array value is not modelled.
- `encodeURIComponent` is the function parameter `enc`.
- `Query.LowerCaseKeys`: the result is a map, so the property order of the returned object is not stated.
- `RequestUrl.Lookup`: assumes distinct property names, as a JavaScript object has.
- `RequestUrl.Host`: has no contract of its own. The fallback to `requestContext.domainName`, and "undefined" without a request context, are in its body only.
- Event fields are strings or missing. `null` and non-string values are not modelled.
- The rest of both Lambda handlers is not part of this model: static files, ETags, base64 and charset decoding, MIME lookup and callbacks. The same goes for `templates/crud-foobar/node.js`, `bin/elm-webapp.js`, `templates/index.js`, `templates/application-element/public/assets/ext.browser.js` and `templates/crud/scripts/wait-for-changes.js`. These are I/O, browser code or foreign libraries.
- A full concrete run of `AddCrud` on literal template text, renaming included, is not stated. The general lemma `Applier.AddCrudTemplate` and the file-level scenarios cover that path.

## Findings

| source | as written | input that shows it | evidently intended | confidence | as-written member | corrected member |
|---|---|---|---|---|---|---|
| bin/elm-webapp-addcrud.js:101-102 | the after-branch splice index is `Math.min(...beforeIndexes) - 1`; that is -2 after a miss, which `splice` reads as two lines above the end | file `f x =`, `  y`, `  z`; anchor `f`; before `nope`; after `  z` | insert right above the first matched `after` line, at 2; the code inserts at 1 | high; not executed | ResolverExamples.AfterBranchMisplaces | Resolver.IntendedAfterMatch |
| bin/elm-webapp-addcrud.js:92-93 | an empty `before` list passes the all-found test, and `Math.max()` is -Infinity, so the body goes to index 0 | file `module M`, `f x =`, `  y`; anchor `f`; before empty; after `  y` | fall through to the `after` context and insert at 2 | high; not executed | ResolverExamples.EmptyBeforeAtTop | Resolver.IntendedAfterMatch |
| bin/elm-webapp-addcrud.js:89-98 | after a `before` miss the cursor stays -1, and `indexOf(line, -1)` searches only the last line | file `f x =`, `  y`, `  z`; anchor `f`; before `nope`; after `  y` | search the `after` lines from the anchor, which finds `  y` at 1; the code reports a mismatch | medium; not executed | ResolverExamples.MissCursor | Resolver.IntendedMismatchExactly |
| templates/crud-foobar/lambda.js:50-54 | `'?' + queryString` is added even though `toQueryString` already starts with `?` | multi-value parameters `{a: ['1']}` | URL ending `?a=1`; the code builds `??a=1` | high; not executed | RequestUrl.CrudUrlDoubleMark | RequestUrl.CrudUrlIntendedAgrees |

=== FILE: applier.dfy ===
/** `apply` and the program around it: each hunk either creates its file from
    the body lines or patches the existing file line by line, hunks are applied
    one after another as the loop hands them over, and the first failure stops
    the program with every earlier write left in place. The filesystem is a map
    from path to file text. */
module Applier {
  import opened Results
  import opened JsString
  import opened Renamer
  import opened Hunks
  import opened Resolver
  import opened TemplateParser
  import opened TemplateShape

  /** Which placement rule patches use: the code as written, or the corrected
      rule (`Resolver.InsertionPointIntended`). */
  datatype Resolution = AsWritten | Intended

  /** Path to file text; a path that is not a key does not exist. */
  type FileSystem = map<string, string>

  /** Why `apply` stops the program: the file to patch cannot be read, or
      `raiseError` was reached while patching it. */
  datatype ApplyError = MissingTarget(path: string) | PatchFailed(path: string, reason: PatchError)

  /** `!state.functionLine`: a hunk without an anchor, or with an empty one,
      creates its file. */
  predicate CreatesFile(h: Hunk) {
    h.anchor.None? || h.anchor.value == ""
  }

  /** Where the chosen placement rule puts a hunk's body, or why it cannot. */
  function Placement(mode: Resolution, h: Hunk, src: seq<string>): (r: Result<nat, PatchError>)
    requires h.anchor.Some?
    ensures r.Success? ==> r.value <= |src|
  {
    match mode
    case AsWritten => InsertionPoint(h, src)
    case Intended => InsertionPointIntended(h, src)
  }

  /** The line-level patch under the chosen placement rule: the body spliced in
      where the rule places it, or the rule's error. */
  function Patched(mode: Resolution, h: Hunk, src: seq<string>): (r: Result<seq<string>, PatchError>)
    requires h.anchor.Some?
    ensures r.Success? <==> Placement(mode, h, src).Success?
    ensures r.Failure? ==> r.error == Placement(mode, h, src).error
    ensures r.Success? ==>
      var k := Placement(mode, h, src).value;
      r.value == src[..k] + h.body + src[k..]
  {
    match mode
    case AsWritten => TryPatching(h, src)
    case Intended => TryPatchingIntended(h, src)
  }

  /** `apply(state)`: creating writes the body joined with newlines, whatever was
      there; patching splits the file on newlines, patches and joins again. Only
      the hunk's own path is written. */
  function Apply(mode: Resolution, fs: FileSystem, h: Hunk): (r: Result<FileSystem, ApplyError>)
    ensures r.Success? ==> r.value.Keys == fs.Keys + {h.path}
    ensures r.Success? ==> forall p :: p in fs && p != h.path ==> r.value[p] == fs[p]
    ensures CreatesFile(h) ==> r.Success?
    ensures r.Failure? ==> r.error.path == h.path
    ensures r.Failure? && r.error.MissingTarget? <==> !CreatesFile(h) && h.path !in fs
  {
    if CreatesFile(h) then Success(fs[h.path := Join(h.body, "\n")])
    else if h.path !in fs then Failure(MissingTarget(h.path))
    else
      match Patched(mode, h, Split(fs[h.path], '\n'))
      case Failure(e) => Failure(PatchFailed(h.path, e))
      case Success(lines) => Success(fs[h.path := Join(lines, "\n")])
  }

  /** Lines that a newline split can give back unchanged. */
  predicate SingleLines(lines: seq<string>) {
    forall i :: 0 <= i < |lines| ==> '\n' !in lines[i]
  }

  /** A created file reads back, split on newlines, as the hunk's body; an empty
      body leaves an empty file, which reads back as one empty line. */
  lemma CreateRoundTrip(mode: Resolution, fs: FileSystem, h: Hunk)
    requires CreatesFile(h) && SingleLines(h.body)
    ensures Apply(mode, fs, h).Success?
    ensures Split(Apply(mode, fs, h).value[h.path], '\n') == if |h.body| == 0 then [""] else h.body
  {
    if |h.body| > 0 {
      SplitJoin(h.body, '\n');
    }
  }

  /** A patched file reads back as its old lines with exactly the body spliced in
      where the placement rule puts it; the old text is those old lines joined
      again. */
  lemma PatchRoundTrip(mode: Resolution, fs: FileSystem, h: Hunk)
    requires !CreatesFile(h) && SingleLines(h.body)
    requires Apply(mode, fs, h).Success?
    ensures h.path in fs
    ensures Join(Split(fs[h.path], '\n'), "\n") == fs[h.path]
    ensures var src := Split(fs[h.path], '\n');
      && Placement(mode, h, src).Success?
      && var k := Placement(mode, h, src).value;
         Split(Apply(mode, fs, h).value[h.path], '\n') == src[..k] + h.body + src[k..]
  {
    var src := Split(fs[h.path], '\n');
    JoinSplit(fs[h.path], '\n');
    var lines := Patched(mode, h, src).value;
    PatchWrites(mode, fs, h, lines);
    var k := Placement(mode, h, src).value;
    SpliceSingleLines(src, h.body, k);
    SplitJoin(lines, '\n');
  }

  /** Splicing single lines into single lines gives single lines. */
  lemma SpliceSingleLines(src: seq<string>, body: seq<string>, k: nat)
    requires SingleLines(src) && SingleLines(body) && k <= |src|
    ensures SingleLines(src[..k] + body + src[k..])
  {
    var lines := src[..k] + body + src[k..];
    forall i | 0 <= i < |lines| ensures '\n' !in lines[i] {
      if i < k {
        assert lines[i] == src[i];
      } else if i < k + |body| {
        assert lines[i] == body[i - k];
      } else {
        assert lines[i] == src[i - |body|];
      }
    }
  }

  /** A patch hunk without added lines still rewrites its file, and the file
      comes back unchanged. */
  lemma EmptyPatchKeepsFile(mode: Resolution, fs: FileSystem, h: Hunk)
    requires !CreatesFile(h) && |h.body| == 0
    requires Apply(mode, fs, h).Success?
    ensures Apply(mode, fs, h).value == fs
  {
    var text := fs[h.path];
    var src := Split(text, '\n');
    var lines := Patched(mode, h, src).value;
    var k := Placement(mode, h, src).value;
    SpliceNothing(src, h.body, k);
    PatchWrites(mode, fs, h, lines);
    JoinSplit(text, '\n');
    UpdateSame(fs, h.path, text);
  }

  /** Splicing in no lines changes nothing. */
  lemma SpliceNothing<T>(src: seq<T>, body: seq<T>, k: nat)
    requires |body| == 0 && k <= |src|
    ensures src[..k] + body + src[k..] == src
  {
    assert src[..k] + src[k..] == src;
  }

  /** Writing a file's own text back leaves the filesystem as it was. */
  lemma UpdateSame<K, V>(m: map<K, V>, k: K, v: V)
    requires k in m && m[k] == v
    ensures m[k := v] == m
  {
  }

  /** What a successful patch writes. */
  lemma PatchWrites(mode: Resolution, fs: FileSystem, h: Hunk, lines: seq<string>)
    requires !CreatesFile(h) && h.path in fs
    requires Patched(mode, h, Split(fs[h.path], '\n')) == Success(lines)
    ensures Apply(mode, fs, h) == Success(fs[h.path := Join(lines, "\n")])
  {
  }

  /** The filesystem when the program stops, and the error that stopped it. */
  datatype Outcome = Outcome(fs: FileSystem, error: Option<ApplyError>)

  /** The hunks applied one by one in order, with no check beforehand; the first
      failure ends the run and nothing already written is undone. */
  function Run(mode: Resolution, fs: FileSystem, hunks: seq<Hunk>): (r: Outcome)
    ensures fs.Keys <= r.fs.Keys
    ensures r.error.Some? ==> exists i :: 0 <= i < |hunks| && r.error.value.path == hunks[i].path
    decreases |hunks|
  {
    if |hunks| == 0 then Outcome(fs, None)
    else
      match Apply(mode, fs, hunks[0])
      case Failure(e) => Outcome(fs, Some(e))
      case Success(fs') =>
        var r := Run(mode, fs', hunks[1..]);
        assert r.error.Some? ==> exists i :: 0 <= i < |hunks| && r.error.value.path == hunks[i].path by {
          if r.error.Some? {
            var j :| 0 <= j < |hunks[1..]| && r.error.value.path == hunks[1..][j].path;
            assert hunks[j + 1] == hunks[1..][j];
          }
        }
        r
  }

  /** A path no hunk names keeps its text, and exists afterwards exactly when it
      existed before. */
  lemma {:induction false} RunFrame(mode: Resolution, fs: FileSystem, hunks: seq<Hunk>, p: string)
    requires forall i :: 0 <= i < |hunks| ==> hunks[i].path != p
    ensures p in Run(mode, fs, hunks).fs <==> p in fs
    ensures p in fs ==> Run(mode, fs, hunks).fs[p] == fs[p]
    decreases |hunks|
  {
    if |hunks| > 0 {
      assert hunks[0].path != p;
      match Apply(mode, fs, hunks[0])
      case Failure(e) =>
      case Success(fs') =>
        assert forall i :: 0 <= i < |hunks[1..]| ==> hunks[1..][i].path != p by {
          forall i | 0 <= i < |hunks[1..]| ensures hunks[1..][i].path != p {
            assert hunks[1..][i] == hunks[i + 1];
          }
        }
        RunFrame(mode, fs', hunks[1..], p);
    }
  }

  /** Running two lists of hunks is running the first and, if it got through,
      the second from where the first left the filesystem. */
  lemma {:induction false} RunAppend(mode: Resolution, fs: FileSystem, a: seq<Hunk>, b: seq<Hunk>)
    ensures Run(mode, fs, a + b) ==
      if Run(mode, fs, a).error.Some? then Run(mode, fs, a) else Run(mode, Run(mode, fs, a).fs, b)
    decreases |a|
  {
    if |a| == 0 {
      assert a + b == b;
    } else {
      assert (a + b)[0] == a[0];
      assert (a + b)[1..] == a[1..] + b;
      match Apply(mode, fs, a[0])
      case Failure(e) =>
      case Success(fs') =>
        RunAppend(mode, fs', a[1..], b);
    }
  }

  /** No rollback and no further hunks: when a hunk fails, the program ends with
      that hunk's error and exactly the writes of the hunks before it. */
  lemma RunStopsAtFailure(mode: Resolution, fs: FileSystem, a: seq<Hunk>, h: Hunk, c: seq<Hunk>, e: ApplyError)
    requires Run(mode, fs, a).error.None?
    requires Apply(mode, Run(mode, fs, a).fs, h) == Failure(e)
    ensures Run(mode, fs, a + [h] + c) == Outcome(Run(mode, fs, a).fs, Some(e))
  {
    RunAppend(mode, fs, a, [h] + c);
    assert a + [h] + c == a + ([h] + c);
    assert ([h] + c)[0] == h;
  }

  /** Hunks that only create files never fail. */
  lemma {:induction false} CreateOnlyRunSucceeds(mode: Resolution, fs: FileSystem, hunks: seq<Hunk>)
    requires forall i :: 0 <= i < |hunks| ==> CreatesFile(hunks[i])
    ensures Run(mode, fs, hunks).error.None?
    decreases |hunks|
  {
    if |hunks| > 0 {
      assert CreatesFile(hunks[0]);
      var fs' := Apply(mode, fs, hunks[0]).value;
      assert forall i :: 0 <= i < |hunks[1..]| ==> CreatesFile(hunks[1..][i]) by {
        forall i | 0 <= i < |hunks[1..]| ensures CreatesFile(hunks[1..][i]) {
          assert hunks[1..][i] == hunks[i + 1];
        }
      }
      CreateOnlyRunSucceeds(mode, fs', hunks[1..]);
    }
  }

  /** Last write wins: with only creating hunks, a file holds the body of the
      last hunk that names it, whatever the earlier ones or the disk held. */
  lemma {:induction false} CreateOnlyLastWins(mode: Resolution, fs: FileSystem, hunks: seq<Hunk>, i: nat)
    requires forall j :: 0 <= j < |hunks| ==> CreatesFile(hunks[j])
    requires i < |hunks|
    requires forall j :: i < j < |hunks| ==> hunks[j].path != hunks[i].path
    ensures hunks[i].path in Run(mode, fs, hunks).fs
    ensures Run(mode, fs, hunks).fs[hunks[i].path] == Join(hunks[i].body, "\n")
    decreases |hunks|
  {
    assert CreatesFile(hunks[0]);
    var fs' := Apply(mode, fs, hunks[0]).value;
    var rest := hunks[1..];
    assert Run(mode, fs, hunks) == Run(mode, fs', rest);
    if i == 0 {
      assert forall j :: 0 <= j < |rest| ==> rest[j].path != hunks[0].path by {
        forall j | 0 <= j < |rest| ensures rest[j].path != hunks[0].path {
          assert rest[j] == hunks[j + 1];
        }
      }
      RunFrame(mode, fs', rest, hunks[0].path);
    } else {
      assert forall j :: 0 <= j < |rest| ==> CreatesFile(rest[j]) by {
        forall j | 0 <= j < |rest| ensures CreatesFile(rest[j]) {
          assert rest[j] == hunks[j + 1];
        }
      }
      assert forall j :: i - 1 < j < |rest| ==> rest[j].path != rest[i - 1].path by {
        forall j | i - 1 < j < |rest| ensures rest[j].path != rest[i - 1].path {
          assert rest[j] == hunks[j + 1];
        }
      }
      CreateOnlyLastWins(mode, fs', rest, i - 1);
    }
  }

  /** How the program ends: the usage message for a missing argument, or the
      filesystem it leaves, the error `raiseError` or a failed read stopped it
      with, and whether the loop crashed on a malformed template line. */
  datatype AddCrudOutcome = UsageError | Finished(fs: FileSystem, error: Option<ApplyError>, crashed: bool)

  /** The whole program for template text `template`, argument `targetName` and
      starting filesystem `fs`. Hunks flushed before a crashing line were already
      applied when it crashed; an apply failure ends the program before any
      later line is read. */
  function AddCrud(mode: Resolution, template: string, targetName: string, fs: FileSystem): (r: AddCrudOutcome)
    ensures r.UsageError? <==> targetName == ""
    ensures r.Finished? && r.crashed ==> r.error.None?
    ensures r.Finished? ==> fs.Keys <= r.fs.Keys
  {
    match DeriveNames(targetName)
    case None => UsageError
    case Some(names) =>
      var p := Parse(names, Split(template, '\n'));
      var out := Run(mode, fs, p.hunks);
      Finished(out.fs, out.error, p.crashed && out.error.None?)
  }

  /** A template laid out as file blocks runs without crashing and applies
      exactly the expected hunk records, in template order. */
  lemma AddCrudTemplate(mode: Resolution, files: seq<TemplateFile>, targetName: string, fs: FileSystem)
    requires targetName != ""
    requires WellFormed(files) && |files| > 0
    requires SingleLines(TemplateText(files))
    ensures var out := Run(mode, fs, Expected(DeriveNames(targetName).value, files));
      AddCrud(mode, Join(TemplateText(files), "\n"), targetName, fs) == Finished(out.fs, out.error, false)
  {
    var lines := TemplateText(files);
    assert |lines| >= 1 by {
      assert lines == FileText(files[0]) + TemplateText(files[1..]);
    }
    SplitJoin(lines, '\n');
    TemplateHunksInOrder(DeriveNames(targetName).value, files);
  }
}

=== FILE: applier_examples.dfy ===
/** Whole-file cases: creating a new module, and failing to patch the
    server's handler file. */
module ApplierExamples {
  import opened Results
  import opened JsString
  import opened Hunks
  import opened Resolver
  import opened ResolverExamples
  import opened Applier

  /** A creating hunk on a disk without the file writes exactly its lines joined
      with a newline. */
  lemma NewFileWritten(mode: Resolution, fs: FileSystem)
    requires "src/PostAPI.elm" !in fs
    ensures Apply(mode, fs, Hunk("src/PostAPI.elm", None, [], ["line1", "line2"], [])) ==
      Success(fs["src/PostAPI.elm" := "line1\nline2"])
    ensures Split(Apply(mode, fs, Hunk("src/PostAPI.elm", None, [], ["line1", "line2"], [])).value["src/PostAPI.elm"], '\n') ==
      ["line1", "line2"]
  {
    var h := Hunk("src/PostAPI.elm", None, [], ["line1", "line2"], []);
    assert Join(h.body, "\n") == "line1\nline2" by {
      assert Join(h.body[1..], "\n") == "line2";
    }
    CreateRoundTrip(mode, fs, h);
  }

  /** A disk on which the handler file reads as the scenario's three lines. */
  predicate ServerOnDisk(fs: FileSystem) {
    "src/Server.elm" in fs && Split(fs["src/Server.elm"], '\n') == HandlerFile()
  }

  /** An anchor missing from the handler fails the patch and the whole run, and
      the disk is left exactly as it was. */
  lemma ServerUntouched(mode: Resolution, fs: FileSystem)
    requires ServerOnDisk(fs)
    ensures Apply(mode, fs, HandlerHunk("doesNotExist")) ==
      Failure(PatchFailed("src/Server.elm", AnchorNotFound))
    ensures Run(mode, fs, [HandlerHunk("doesNotExist")]) ==
      Outcome(fs, Some(PatchFailed("src/Server.elm", AnchorNotFound)))
  {
    MissingAnchorFails();
    assert Patched(mode, HandlerHunk("doesNotExist"), HandlerFile()) == Failure(AnchorNotFound);
  }
}

=== FILE: hunk.dfy ===
/** The record the parser hands to `apply`: one hunk of the template. */
module Hunks {
  import opened Results

  /** `path` is `filepath`; `anchor` is `functionLine`, `None` when the hunk
      header had nothing after its closing ` @@`; `before`, `body` and `after`
      are the context lines above the added lines, the added lines, and the
      context lines below them. */
  datatype Hunk = Hunk(
    path: string,
    anchor: Option<string>,
    before: seq<string>,
    body: seq<string>,
    after: seq<string>)
}

=== FILE: hunk_header.dfy ===
/** The two header helpers: `filepathFrom` reads the target path of a `+++ `
    line and `functionLineFrom` reads the anchor of an `@@ ` line. */
module HunkHeader {
  import opened Results
  import opened JsString

  /** `pflag`: the number of leading path segments dropped, as in `patch -p 2`. */
  const PathStrip: nat := 2

  /** The path text of a target header: what precedes the first tab, without the
      four-character `+++ ` marker. */
  function PathField(line: string): (r: string)
    ensures '\t' !in line ==> r == SubstringFrom(line, 4)
    ensures '\t' in line ==> r == SubstringFrom(line[..FirstIndex(line, '\t')], 4)
  {
    var head := Split(line, '\t')[0];
    assert '\t' !in line ==> head == line by {
      if '\t' !in line {
        SplitNoSeparator(line, '\t');
      }
    }
    SubstringFrom(head, 4)
  }

  /** `parts.shift()` done `n` times. */
  function DropFirst(parts: seq<string>, n: nat): seq<string> {
    if n >= |parts| then [] else parts[n..]
  }


  /** Reference meaning of stripping `n` segments: the text after the `n`-th
      slash, or "" when there are fewer than `n` slashes. */
  function AfterSlashes(p: string, n: nat): string
    decreases n
  {
    if n == 0 then p
    else if '/' in p then AfterSlashes(p[FirstIndex(p, '/') + 1..], n - 1)
    else ""
  }

  lemma {:induction false} DropSegments(p: string, n: nat)
    ensures Join(DropFirst(Split(p, '/'), n), "/") == AfterSlashes(p, n)
    decreases n
  {
    if n == 0 {
      JoinSplit(p, '/');
    } else if '/' !in p {
      SplitNoSeparator(p, '/');
    } else {
      var i := FirstIndex(p, '/');
      assert p == p[..i] + ['/'] + p[i + 1..];
      SplitAtFirst(p[..i], p[i + 1..], '/');
      var rest := Split(p[i + 1..], '/');
      assert DropFirst([p[..i]] + rest, n) == DropFirst(rest, n - 1);
      DropSegments(p[i + 1..], n - 1);
    }
  }

  /** `filepathFrom`: the header's path field split on slashes, the first
      `PathStrip` segments shifted off and the rest joined again. That keeps what
      follows the second slash of the path field, and yields "" for a path field
      without a slash. */
  function FilepathFrom(line: string): (r: string)
    ensures r == AfterSlashes(PathField(line), PathStrip)
    ensures '/' !in PathField(line) ==> r == ""
  {
    DropSegments(PathField(line), PathStrip);
    Join(DropFirst(Split(PathField(line), '/'), PathStrip), "/")
  }

  /** The hunk-header delimiter the anchor follows. */
  const Delimiter := " @@ "

  /** `functionLineFrom`: `None` (JavaScript `undefined`) exactly when the header
      ends with ` @@`. Otherwise the text after the last ` @@ `: it runs to the end
      of the line, the delimiter stands right before it, and no delimiter begins
      later. Without any delimiter `lastIndexOf` gives -1 and the anchor is the
      line from index 3 on. */
  function FunctionLineFrom(line: string): (r: Option<string>)
    ensures r.None? <==> EndsWith(line, " @@")
    ensures r.Some? && (exists j :: OccursAt(line, Delimiter, j)) ==>
      && |r.value| + 4 <= |line|
      && line[|line| - |r.value|..] == r.value
      && OccursAt(line, Delimiter, |line| - |r.value| - 4)
      && forall j :: |line| - |r.value| - 4 < j ==> !OccursAt(line, Delimiter, j)
    ensures r.Some? && (forall j :: !OccursAt(line, Delimiter, j)) ==> r.value == SubstringFrom(line, 3)
  {
    if EndsWith(line, " @@") then None
    else Some(SubstringFrom(line, (LastIndexOf(line, Delimiter) + 4) as nat))
  }
}

=== FILE: js_array.dfy ===
/** The JavaScript array built-ins `tryPatching` relies on, with their JavaScript
    meaning: `indexOf(x, fromIndex)` with negative offsets, `findIndex`,
    `Math.max`/`Math.min` of a spread list (infinite when empty), and the
    start clamping of `splice`. */
module JsArray {
  import opened JsString

  /** Where `xs.indexOf(x, from)` starts looking: a negative `from` counts back
      from the end and is clamped at 0; a `from` past the end finds nothing. */
  function SearchStart(len: nat, from: int): nat {
    if from >= 0 then from
    else if len + from >= 0 then len + from
    else 0
  }

  /** The first index at or after `k` holding `x`, or -1. */
  function IndexFrom<T(==)>(xs: seq<T>, x: T, k: nat): (r: int)
    ensures r == -1 || (k <= r < |xs| && xs[r] == x)
    ensures forall j :: k <= j < |xs| && (r == -1 || j < r) ==> xs[j] != x
    decreases if k <= |xs| then |xs| - k else 0
  {
    if k >= |xs| then -1
    else if xs[k] == x then k
    else IndexFrom(xs, x, k + 1)
  }

  /** `xs.indexOf(x, from)` */
  function IndexOf<T(==)>(xs: seq<T>, x: T, from: int): (r: int)
    ensures r == -1 || (SearchStart(|xs|, from) <= r < |xs| && xs[r] == x)
    ensures forall j :: SearchStart(|xs|, from) <= j < |xs| && (r == -1 || j < r) ==> xs[j] != x
  {
    IndexFrom(xs, x, SearchStart(|xs|, from))
  }

  /** With the cursor at -1 (the value left by a failed search) `indexOf` looks
      only at the last element. */
  lemma IndexOfAfterMiss<T>(xs: seq<T>, x: T)
    requires |xs| > 0
    ensures IndexOf(xs, x, -1) == (if xs[|xs| - 1] == x then |xs| - 1 else -1)
  {
  }

  /** The first line that starts with `prefix`, or -1 when none does. */
  function FindIndex(xs: seq<string>, prefix: string): (r: int)
    ensures r == -1 <==> forall i :: 0 <= i < |xs| ==> !StartsWith(xs[i], prefix)
    ensures r != -1 ==> 0 <= r < |xs| && StartsWith(xs[r], prefix)
    ensures forall i :: 0 <= i < r ==> !StartsWith(xs[i], prefix)
    decreases |xs|
  {
    if |xs| == 0 then -1
    else if StartsWith(xs[0], prefix) then 0
    else
      var r := FindIndex(xs[1..], prefix);
      if r == -1 then -1 else r + 1
  }

  /** A JavaScript number as far as the splice arithmetic needs it. */
  datatype Num = NegInfinity | Finite(n: int) | PosInfinity

  /** `Math.max(...xs)`: -Infinity for an empty list. */
  function MathMax(xs: seq<int>): (r: Num)
    ensures r == NegInfinity <==> |xs| == 0
    ensures !r.PosInfinity?
    decreases |xs|
  {
    if |xs| == 0 then NegInfinity
    else
      var rest := MathMax(xs[1..]);
      if rest.Finite? && rest.n > xs[0] then rest else Finite(xs[0])
  }

  /** `Math.min(...xs)`: +Infinity for an empty list. */
  function MathMin(xs: seq<int>): (r: Num)
    ensures r == PosInfinity <==> |xs| == 0
    ensures !r.NegInfinity?
    decreases |xs|
  {
    if |xs| == 0 then PosInfinity
    else
      var rest := MathMin(xs[1..]);
      if rest.Finite? && rest.n < xs[0] then rest else Finite(xs[0])
  }

  /** `Math.max` of a non-empty list is one of its elements and no element
      exceeds it. */
  lemma {:induction false} MathMaxIsMaximum(xs: seq<int>)
    requires |xs| > 0
    ensures MathMax(xs).Finite?
    ensures MathMax(xs).n in xs
    ensures forall i :: 0 <= i < |xs| ==> xs[i] <= MathMax(xs).n
    decreases |xs|
  {
    if |xs| > 1 {
      MathMaxIsMaximum(xs[1..]);
      var m := MathMax(xs[1..]).n;
      assert m in xs by { var k :| 0 <= k < |xs[1..]| && xs[1..][k] == m; assert xs[k + 1] == m; }
      forall i | 0 <= i < |xs| ensures xs[i] <= MathMax(xs).n {
        if i > 0 { assert xs[i] == xs[1..][i - 1]; }
      }
    }
  }

  /** `Math.min` of a non-empty list is one of its elements and no element is
      below it. */
  lemma {:induction false} MathMinIsMinimum(xs: seq<int>)
    requires |xs| > 0
    ensures MathMin(xs).Finite?
    ensures MathMin(xs).n in xs
    ensures forall i :: 0 <= i < |xs| ==> MathMin(xs).n <= xs[i]
    decreases |xs|
  {
    if |xs| > 1 {
      MathMinIsMinimum(xs[1..]);
      var m := MathMin(xs[1..]).n;
      assert m in xs by { var k :| 0 <= k < |xs[1..]| && xs[1..][k] == m; assert xs[k + 1] == m; }
      forall i | 0 <= i < |xs| ensures MathMin(xs).n <= xs[i] {
        if i > 0 { assert xs[i] == xs[1..][i - 1]; }
      }
    }
  }

  /** `a + d` for a finite `d`: infinities absorb it. */
  function Plus(a: Num, d: int): Num {
    match a
    case Finite(n) => Finite(n + d)
    case _ => a
  }

  /** The index `xs.splice(start, 0, ...)` inserts at: a negative start counts
      back from the end, and the result is clamped to `0..len`. */
  function SpliceStart(len: nat, start: Num): (k: nat)
    ensures k <= len
    ensures start == NegInfinity ==> k == 0
    ensures start == PosInfinity ==> k == len
    ensures start.Finite? && start.n < 0 ==> k == if len + start.n < 0 then 0 else len + start.n
    ensures start.Finite? && start.n >= 0 ==> k == if start.n < len then start.n else len
  {
    match start
    case NegInfinity => 0
    case PosInfinity => len
    case Finite(n) =>
      if n < 0 then (if len + n < 0 then 0 else len + n)
      else if n > len then len
      else n
  }

  /** `items` placed in `xs` in front of index `k`. */
  function InsertAt<T>(xs: seq<T>, k: nat, items: seq<T>): (r: seq<T>)
    requires k <= |xs|
    ensures |r| == |xs| + |items|
    ensures r[..k] == xs[..k] && r[k + |items|..] == xs[k..]
    ensures r[k..k + |items|] == items
  {
    xs[..k] + items + xs[k..]
  }
}

=== FILE: js_string.dfy ===
/** The JavaScript string built-ins the engine and the lambda templates rely on,
    with their JavaScript meaning: `startsWith`, `endsWith`, `substring`,
    `lastIndexOf`, `split`, `join`, literal replace-all and ASCII case mapping. */
module JsString {

  /** `s.startsWith(p)` */
  predicate StartsWith(s: string, p: string) {
    |p| <= |s| && s[..|p|] == p
  }

  /** `s.endsWith(p)` */
  predicate EndsWith(s: string, p: string) {
    |p| <= |s| && s[|s| - |p|..] == p
  }

  /** `pat` occurs in `s` beginning at index `j`. */
  predicate OccursAt(s: string, pat: string, j: int) {
    0 <= j && j + |pat| <= |s| && s[j..j + |pat|] == pat
  }

  /** `s.substring(start)` for a non-negative start: a start past the end gives "". */
  function SubstringFrom(s: string, start: nat): (r: string)
    ensures |r| == if start <= |s| then |s| - start else 0
    ensures r == s[|s| - |r|..]
  {
    if start <= |s| then s[start..] else ""
  }

  /** The last occurrence of `pat` at an index no larger than `k`, or -1. */
  function LastIndexAtOrBelow(s: string, pat: string, k: int): (r: int)
    ensures r == -1 || (r <= k && OccursAt(s, pat, r))
    ensures forall j :: j <= k && OccursAt(s, pat, j) ==> j <= r
    decreases if k < 0 then 0 else k + 1
  {
    if k < 0 then -1
    else if OccursAt(s, pat, k) then k
    else LastIndexAtOrBelow(s, pat, k - 1)
  }

  /** `s.lastIndexOf(pat)`: the index of the last occurrence, -1 when there is none. */
  function LastIndexOf(s: string, pat: string): (r: int)
    ensures r == -1 || OccursAt(s, pat, r)
    ensures forall j :: OccursAt(s, pat, j) ==> j <= r
  {
    LastIndexAtOrBelow(s, pat, |s| - |pat|)
  }

  /** The index of the first `c` in `s`. */
  function FirstIndex(s: string, c: char): (i: nat)
    requires c in s
    ensures i < |s| && s[i] == c && c !in s[..i]
  {
    if s[0] == c then 0
    else
      var i := 1 + FirstIndex(s[1..], c);
      assert s[..i] == [s[0]] + s[1..][..i - 1];
      i
  }

  /** `s.split(sep)` for a one-character separator: never empty, no piece holds
      the separator, and the first piece is the text before the first separator. */
  function Split(s: string, sep: char): (parts: seq<string>)
    ensures |parts| >= 1
    ensures forall i :: 0 <= i < |parts| ==> sep !in parts[i]
    ensures StartsWith(s, parts[0])
    ensures |parts[0]| < |s| ==> s[|parts[0]|] == sep
    decreases |s|
  {
    if |s| == 0 then [""]
    else
      var rest := Split(s[1..], sep);
      if s[0] == sep then [""] + rest
      else
        var first := [s[0]] + rest[0];
        assert s[..|first|] == first by {
          assert s[1..][..|rest[0]|] == rest[0];
        }
        [first] + rest[1..]
  }

  /** `parts.join(sep)` */
  function Join(parts: seq<string>, sep: string): string
    decreases |parts|
  {
    if |parts| == 0 then ""
    else if |parts| == 1 then parts[0]
    else parts[0] + sep + Join(parts[1..], sep)
  }

  /** Joining with a character prepended to the first piece prepends it to the result. */
  lemma JoinPrepend(c: char, parts: seq<string>, sep: string)
    requires |parts| >= 1
    ensures Join([[c] + parts[0]] + parts[1..], sep) == [c] + Join(parts, sep)
  {
    var ps := [[c] + parts[0]] + parts[1..];
    assert ps[1..] == parts[1..];
  }

  /** Joining the pieces of a split gives back the text. */
  lemma {:induction false} JoinSplit(s: string, sep: char)
    ensures Join(Split(s, sep), [sep]) == s
    decreases |s|
  {
    if |s| > 0 {
      var rest := Split(s[1..], sep);
      JoinSplit(s[1..], sep);
      if s[0] == sep {
        assert ([""] + rest)[1..] == rest;
      } else {
        JoinPrepend(s[0], rest, [sep]);
      }
    }
  }

  /** Text without the separator splits into itself. */
  lemma {:induction false} SplitNoSeparator(a: string, sep: char)
    requires sep !in a
    ensures Split(a, sep) == [a]
    decreases |a|
  {
    if |a| > 0 {
      SplitNoSeparator(a[1..], sep);
      assert [a[0]] + a[1..] == a;
    }
  }

  /** A split cuts at the first separator and continues with the rest. */
  lemma {:induction false} SplitAtFirst(a: string, b: string, sep: char)
    requires sep !in a
    ensures Split(a + [sep] + b, sep) == [a] + Split(b, sep)
    decreases |a|
  {
    var s := a + [sep] + b;
    if |a| == 0 {
      assert s[1..] == b;
    } else {
      assert s[1..] == a[1..] + [sep] + b;
      SplitAtFirst(a[1..], b, sep);
      var rest := Split(s[1..], sep);
      assert rest[0] == a[1..] && rest[1..] == Split(b, sep);
      assert [a[0]] + a[1..] == a;
    }
  }

  /** Splitting joined pieces that hold no separator gives back the pieces. */
  lemma {:induction false} SplitJoin(parts: seq<string>, sep: char)
    requires |parts| >= 1
    requires forall i :: 0 <= i < |parts| ==> sep !in parts[i]
    ensures Split(Join(parts, [sep]), sep) == parts
    decreases |parts|
  {
    if |parts| == 1 {
      SplitNoSeparator(parts[0], sep);
    } else {
      SplitJoin(parts[1..], sep);
      SplitAtFirst(parts[0], Join(parts[1..], [sep]), sep);
      assert [parts[0]] + parts[1..] == parts;
    }
  }

  /** The literal replace-all: every occurrence of the non-empty `pat`, found left
      to right without overlap, becomes `rep` as it is. */
  function ReplaceAll(s: string, pat: string, rep: string): string
    requires |pat| > 0
    decreases |s|
  {
    if |s| == 0 then ""
    else if StartsWith(s, pat) then rep + ReplaceAll(s[|pat|..], pat, rep)
    else [s[0]] + ReplaceAll(s[1..], pat, rep)
  }

  /** `s.split(pat)` for a non-empty string separator: the pieces between the
      occurrences of `pat` found scanning left to right. No piece contains `pat`. */
  function SplitOn(s: string, pat: string): (parts: seq<string>)
    requires |pat| > 0
    ensures |parts| >= 1
    ensures StartsWith(s, parts[0])
    ensures forall i, j :: 0 <= i < |parts| ==> !OccursAt(parts[i], pat, j)
    decreases |s|
  {
    if |s| == 0 then [""]
    else if StartsWith(s, pat) then [""] + SplitOn(s[|pat|..], pat)
    else
      var rest := SplitOn(s[1..], pat);
      var first := [s[0]] + rest[0];
      assert s[..|first|] == first by {
        assert s[1..][..|rest[0]|] == rest[0];
      }
      assert forall j :: !OccursAt(first, pat, j) by {
        forall j | OccursAt(first, pat, j)
          ensures false
        {
          if j > 0 {
            assert first[j..j + |pat|] == rest[0][j - 1..j - 1 + |pat|];
            assert OccursAt(rest[0], pat, j - 1);
          }
        }
      }
      [first] + rest[1..]
  }

  /** The pieces of `SplitOn` joined with the pattern give back the text. */
  lemma {:induction false} JoinSplitOn(s: string, pat: string)
    requires |pat| > 0
    ensures Join(SplitOn(s, pat), pat) == s
    decreases |s|
  {
    if |s| > 0 {
      if StartsWith(s, pat) {
        var rest := SplitOn(s[|pat|..], pat);
        JoinSplitOn(s[|pat|..], pat);
        assert ([""] + rest)[1..] == rest;
        assert s == pat + s[|pat|..];
      } else {
        JoinSplitOn(s[1..], pat);
        JoinPrepend(s[0], SplitOn(s[1..], pat), pat);
      }
    }
  }

  /** Replace-all is split-then-join: `s.replace(/pat/g, rep) == s.split(pat).join(rep)`. */
  lemma {:induction false} ReplaceAllIsSplitJoin(s: string, pat: string, rep: string)
    requires |pat| > 0
    ensures ReplaceAll(s, pat, rep) == Join(SplitOn(s, pat), rep)
    decreases |s|
  {
    if |s| > 0 {
      if StartsWith(s, pat) {
        var rest := SplitOn(s[|pat|..], pat);
        ReplaceAllIsSplitJoin(s[|pat|..], pat, rep);
        assert ([""] + rest)[1..] == rest;
      } else {
        ReplaceAllIsSplitJoin(s[1..], pat, rep);
        JoinPrepend(s[0], SplitOn(s[1..], pat), rep);
      }
    }
  }

  /** Text without an occurrence of the pattern is left unchanged. */
  lemma {:induction false} ReplaceAllAbsent(s: string, pat: string, rep: string)
    requires |pat| > 0
    requires forall j :: !OccursAt(s, pat, j)
    ensures ReplaceAll(s, pat, rep) == s
    decreases |s|
  {
    if |s| > 0 {
      assert !OccursAt(s, pat, 0);
      forall j | 0 <= j
        ensures !OccursAt(s[1..], pat, j)
      {
        OccursInTail(s, pat, j);
      }
      ReplaceAllAbsent(s[1..], pat, rep);
    }
  }

  /** An occurrence in the tail of `s` is an occurrence in `s` one index later. */
  lemma OccursInTail(s: string, pat: string, j: nat)
    requires |s| > 0
    ensures OccursAt(s[1..], pat, j) <==> OccursAt(s, pat, j + 1)
  {
    if j + |pat| <= |s| - 1 {
      assert s[1..][j..j + |pat|] == s[j + 1..j + 1 + |pat|];
    }
  }

  /** The text that replaces one match in `String.prototype.replace` when the
      pattern has no capture groups. A dollar sign followed by another one, by
      `&`, by a backquote or by a quote stands for a dollar sign, the match, the
      text before the match and the text after it; any other dollar sign is kept
      as it is. */
  function Substitute(rep: string, matched: string, before: string, after: string): (r: string)
    ensures '$' !in rep ==> r == rep
    decreases |rep|
  {
    if |rep| == 0 then ""
    else if rep[0] == '$' && |rep| >= 2 && rep[1] == '$' then "$" + Substitute(rep[2..], matched, before, after)
    else if rep[0] == '$' && |rep| >= 2 && rep[1] == '&' then matched + Substitute(rep[2..], matched, before, after)
    else if rep[0] == '$' && |rep| >= 2 && rep[1] == '`' then before + Substitute(rep[2..], matched, before, after)
    else if rep[0] == '$' && |rep| >= 2 && rep[1] == '\'' then after + Substitute(rep[2..], matched, before, after)
    else
      var r := [rep[0]] + Substitute(rep[1..], matched, before, after);
      assert '$' !in rep ==> rep == [rep[0]] + rep[1..];
      r
  }

  /** A global regular-expression replace whose pattern matches exactly the
      non-empty literal `pat`, scanning `s` from index `i`: occurrences are taken
      left to right without overlap, and each is replaced by `rep` with its
      dollar patterns expanded against the whole of `s`. */
  function ReplaceFrom(s: string, pat: string, rep: string, i: nat): string
    requires |pat| > 0 && i <= |s|
    decreases |s| - i
  {
    if i == |s| then ""
    else if OccursAt(s, pat, i) then
      Substitute(rep, pat, s[..i], s[i + |pat|..]) + ReplaceFrom(s, pat, rep, i + |pat|)
    else [s[i]] + ReplaceFrom(s, pat, rep, i + 1)
  }

  /** `s.replace(re, rep)` for a global regular expression `re` matching exactly
      the non-empty literal `pat`. */
  function RegExpReplaceAll(s: string, pat: string, rep: string): string
    requires |pat| > 0
  {
    ReplaceFrom(s, pat, rep, 0)
  }

  /** A replacement without a dollar sign is inserted as it is, so the regular
      expression replace is the literal replace. */
  lemma {:induction false} ReplaceFromLiteral(s: string, pat: string, rep: string, i: nat)
    requires |pat| > 0 && i <= |s|
    requires '$' !in rep
    ensures ReplaceFrom(s, pat, rep, i) == ReplaceAll(s[i..], pat, rep)
    decreases |s| - i
  {
    if i < |s| {
      var t := s[i..];
      assert t[0] == s[i];
      if |pat| <= |t| {
        assert t[..|pat|] == s[i..i + |pat|];
      }
      if OccursAt(s, pat, i) {
        assert t[|pat|..] == s[i + |pat|..];
        ReplaceFromLiteral(s, pat, rep, i + |pat|);
      } else {
        assert t[1..] == s[i + 1..];
        ReplaceFromLiteral(s, pat, rep, i + 1);
      }
    }
  }

  /** Text without an occurrence of the pattern is left unchanged, whatever the
      replacement. */
  lemma {:induction false} ReplaceFromAbsent(s: string, pat: string, rep: string, i: nat)
    requires |pat| > 0 && i <= |s|
    requires forall j :: !OccursAt(s, pat, j)
    ensures ReplaceFrom(s, pat, rep, i) == s[i..]
    decreases |s| - i
  {
    if i < |s| {
      assert !OccursAt(s, pat, i);
      ReplaceFromAbsent(s, pat, rep, i + 1);
      assert s[i..] == [s[i]] + s[i + 1..];
    }
  }

  /** ASCII `toLowerCase` of one character. */
  function LowerChar(c: char): char {
    if 'A' <= c <= 'Z' then (c as int + 32) as char else c
  }

  /** ASCII `toUpperCase` of one character. */
  function UpperChar(c: char): char {
    if 'a' <= c <= 'z' then (c as int - 32) as char else c
  }

  /** No ASCII upper-case letter occurs in `s`. */
  predicate IsLowerCase(s: string) {
    forall i :: 0 <= i < |s| ==> !('A' <= s[i] <= 'Z')
  }

  /** `s.toLowerCase()` restricted to ASCII letters. */
  function ToLowerCase(s: string): (r: string)
    ensures |r| == |s|
    ensures forall i :: 0 <= i < |s| ==>
      if 'A' <= s[i] <= 'Z' then r[i] as int == s[i] as int + 32 else r[i] == s[i]
    ensures IsLowerCase(r)
    ensures IsLowerCase(s) ==> r == s
  {
    seq(|s|, i requires 0 <= i < |s| => LowerChar(s[i]))
  }
}

=== FILE: parser.dfy ===
/** The template parse loop: a fold over the template's lines that carries the
    `state` object and hands each finished hunk to `apply` as soon as a `diff `
    line or the next `@@ ` header arrives, and once more at end of input. */
module TemplateParser {
  import opened Results
  import opened JsString
  import opened Renamer
  import opened HunkHeader
  import opened Hunks

  /** The loop's `state` object: `{}` at the start, `{filepath}` after a target
      header, and a full hunk record after a hunk header. */
  datatype ParseState = Blank | FileOnly(path: string) | InHunk(hunk: Hunk)

  /** What one template line does: the next state and the hunks handed to
      `apply`, or a crash (the `TypeError` of reading a field of `undefined`). */
  datatype StepResult = Next(state: ParseState, flushed: seq<Hunk>) | Crash

  /** The hunk `if (state.body) apply(state)` would apply: any state with a body
      array, even an empty one, since an empty array is truthy. */
  function Pending(st: ParseState): seq<Hunk> {
    if st.InHunk? then [st.hunk] else []
  }

  /** `line.substring(1)` */
  function Unmarked(line: string): string {
    SubstringFrom(line, 1)
  }

  /** The line markers exclude one another, except that a target header is also
      an added line by its first character. */
  lemma MarkerFacts(line: string)
    ensures StartsWith(line, "+++ ") ==> StartsWith(line, "+")
    ensures StartsWith(line, "diff ") ==> !StartsWith(line, "+") && !StartsWith(line, "@@ ")
    ensures StartsWith(line, "@@ ") ==> !StartsWith(line, "+")
  {
    if StartsWith(line, "+++ ") {
      assert line[0] == '+';
      assert line[..1] == "+";
    }
    if StartsWith(line, "diff ") {
      assert line[0] == 'd';
    }
    if StartsWith(line, "@@ ") {
      assert line[0] == '@';
    }
  }

  /** Lines 139-145 for a line inside a hunk: an added line is renamed and pushed
      to `body` without its marker; any other line loses its first character and
      goes to `before` while `body` is empty, to `after` once it is not. */
  function Bucket(names: Names, h: Hunk, line: string): Hunk {
    if StartsWith(line, "+") then h.(body := h.body + [Rename(names, line[1..])])
    else if |h.body| == 0 then h.(before := h.before + [Unmarked(line)])
    else h.(after := h.after + [Unmarked(line)])
  }

  /** One iteration of the loop. The `diff ` test stands alone, so a `diff ` line
      flushes the pending hunk and then also falls through to the bucketing
      branches, like a `--- ` line does. */
  function Step(names: Names, st: ParseState, line: string): (r: StepResult)
    ensures r.Crash? <==>
      || (st.Blank? && StartsWith(line, "@@ "))
      || (!st.InHunk? && StartsWith(line, "+") && !StartsWith(line, "+++ "))
    ensures r.Next? ==>
      r.flushed == if StartsWith(line, "diff ") || StartsWith(line, "@@ ") then Pending(st) else []
    ensures r.Next? && StartsWith(line, "+++ ") ==> r.state == FileOnly(Rename(names, FilepathFrom(line)))
    ensures r.Next? && StartsWith(line, "@@ ") ==>
      && r.state.InHunk? && r.state.hunk.anchor == FunctionLineFrom(line)
      && r.state.hunk.before == r.state.hunk.body == r.state.hunk.after == []
  {
    MarkerFacts(line);
    var flushed := if StartsWith(line, "diff ") then Pending(st) else [];
    if StartsWith(line, "+++ ") then
      Next(FileOnly(Rename(names, FilepathFrom(line))), flushed)
    else if StartsWith(line, "@@ ") then
      match st
      case Blank => Crash
      case FileOnly(path) =>
        Next(InHunk(Hunk(Rename(names, path), FunctionLineFrom(line), [], [], [])), flushed)
      case InHunk(h) =>
        Next(InHunk(Hunk(Rename(names, h.path), FunctionLineFrom(line), [], [], [])), flushed + [h])
    else if st.InHunk? then
      Next(InHunk(Bucket(names, st.hunk, line)), flushed)
    else if StartsWith(line, "+") then
      Crash
    else
      Next(st, flushed)
  }

  /** The loop run over `lines` from state `st`: the hunks applied along the way,
      whether a line crashed it, and the state it stopped in. */
  datatype Parsed = Parsed(hunks: seq<Hunk>, crashed: bool, last: ParseState)

  /** The loop over `lines` for any per-line step: stop at the first crash,
      otherwise collect what each line hands to `apply`. */
  function Fold(step: (ParseState, string) -> StepResult, st: ParseState, lines: seq<string>): Parsed
    decreases |lines|
  {
    if |lines| == 0 then Parsed([], false, st)
    else
      match step(st, lines[0])
      case Crash => Parsed([], true, st)
      case Next(st', out) =>
        var rest := Fold(step, st', lines[1..]);
        Parsed(out + rest.hunks, rest.crashed, rest.last)
  }

  /** The program's loop: the fold of `Step`. */
  function ParseFrom(names: Names, st: ParseState, lines: seq<string>): Parsed {
    Fold((s, line) => Step(names, s, line), st, lines)
  }

  /** The hunks applied by the whole program, in order, and whether the loop
      crashed; the final `if (state.body) apply(state)` runs only without a crash. */
  datatype ParseResult = ParseResult(hunks: seq<Hunk>, crashed: bool)

  function Parse(names: Names, lines: seq<string>): (r: ParseResult)
    ensures (forall i :: 0 <= i < |lines| ==> !StartsWith(lines[i], "+") && !StartsWith(lines[i], "@@ ")) ==>
      r == ParseResult([], false)
    ensures |lines| > 0 && StartsWith(lines[0], "@@ ") ==> r == ParseResult([], true)
  {
    QuietTemplateAppliesNothing(names, lines);
    var p := ParseFrom(names, Blank, lines);
    ParseResult(if p.crashed then p.hunks else p.hunks + Pending(p.last), p.crashed)
  }

  /** Concatenation regroups; stated once so that proofs over long goals need
      not rediscover it. */
  lemma Regroup<T>(a: seq<T>, b: seq<T>, c: seq<T>)
    ensures (a + b) + c == a + (b + c)
  {
  }

  /** The head and tail of a concatenation. */
  lemma ConsAppend<T>(a: seq<T>, b: seq<T>)
    ensures |a| == 0 ==> a + b == b
    ensures |a| > 0 ==> (a + b)[0] == a[0] && (a + b)[1..] == a[1..] + b
  {
    if |a| > 0 {
      assert (a + b)[1..] == a[1..] + b;
    }
  }

  /** Folding over two stretches of lines is folding over the first and then,
      unless it crashed, over the second from where it stopped. */
  lemma {:induction false} FoldAppend(step: (ParseState, string) -> StepResult, st: ParseState,
                                      a: seq<string>, b: seq<string>)
    ensures Fold(step, st, a + b) ==
      var ra := Fold(step, st, a);
      if ra.crashed then ra
      else
        var rb := Fold(step, ra.last, b);
        Parsed(ra.hunks + rb.hunks, rb.crashed, rb.last)
    decreases |a|
  {
    ConsAppend(a, b);
    if |a| > 0 {
      match step(st, a[0])
      case Crash =>
      case Next(st', out) =>
        FoldAppend(step, st', a[1..], b);
        var rest := Fold(step, st', a[1..]);
        Regroup(out, rest.hunks, Fold(step, rest.last, b).hunks);
    }
  }

  /** Running the loop over two stretches of lines is running it over the first
      and then, unless it crashed, over the second from where it stopped. */
  lemma ParseFromAppend(names: Names, st: ParseState, a: seq<string>, b: seq<string>)
    ensures ParseFrom(names, st, a + b) ==
      var ra := ParseFrom(names, st, a);
      if ra.crashed then ra
      else
        var rb := ParseFrom(names, ra.last, b);
        Parsed(ra.hunks + rb.hunks, rb.crashed, rb.last)
  {
    FoldAppend((s, line) => Step(names, s, line), st, a, b);
  }

  /** The loop over a single line is that line's step. */
  lemma ParseOneLine(names: Names, st: ParseState, line: string)
    ensures ParseFrom(names, st, [line]) ==
      match Step(names, st, line)
      case Crash => Parsed([], true, st)
      case Next(st', out) => Parsed(out, false, st')
  {
    match Step(names, st, line)
    case Crash =>
    case Next(st', out) =>
      assert [line][1..] == [];
      assert ParseFrom(names, st', []) == Parsed([], false, st');
      assert out + [] == out;
  }

  /** A line `apply` sees as context or body: not a target header, a hunk header
      or a block separator. */
  predicate HunkLine(line: string) {
    !StartsWith(line, "+++ ") && !StartsWith(line, "@@ ") && !StartsWith(line, "diff ")
  }

  /** An added line. */
  predicate Added(line: string) {
    StartsWith(line, "+")
  }

  /** Reference bucketing: the added lines of a stretch, marker removed and renamed. */
  function AddedLines(names: Names, lines: seq<string>): seq<string>
    decreases |lines|
  {
    if |lines| == 0 then []
    else
      (if Added(lines[0]) then [Rename(names, lines[0][1..])] else []) + AddedLines(names, lines[1..])
  }

  /** Reference bucketing: the context lines of a stretch, first character
      removed and not renamed. */
  function ContextLines(lines: seq<string>): seq<string>
    decreases |lines|
  {
    if |lines| == 0 then []
    else (if Added(lines[0]) then [] else [Unmarked(lines[0])]) + ContextLines(lines[1..])
  }

  /** The position of the first added line, or the length when there is none. */
  function FirstAdded(lines: seq<string>): (f: nat)
    ensures f <= |lines|
    ensures forall i :: 0 <= i < f ==> !Added(lines[i])
    ensures f < |lines| ==> Added(lines[f])
    decreases |lines|
  {
    if |lines| == 0 || Added(lines[0]) then 0 else 1 + FirstAdded(lines[1..])
  }

  /** A hunk line read inside a hunk applies nothing and only buckets the line. */
  lemma ParseHunkLine(names: Names, h: Hunk, lines: seq<string>)
    requires |lines| > 0 && HunkLine(lines[0])
    ensures ParseFrom(names, InHunk(h), lines) ==
      ParseFrom(names, InHunk(Bucket(names, h, lines[0])), lines[1..])
  {
    assert Step(names, InHunk(h), lines[0]) == Next(InHunk(Bucket(names, h, lines[0])), []);
  }

  /** The reference bucketing of a stretch, one line at a time. */
  lemma BucketingCons(names: Names, lines: seq<string>)
    requires |lines| > 0
    ensures Added(lines[0]) ==>
      && AddedLines(names, lines) == [Rename(names, lines[0][1..])] + AddedLines(names, lines[1..])
      && ContextLines(lines) == ContextLines(lines[1..])
    ensures !Added(lines[0]) ==>
      && AddedLines(names, lines) == AddedLines(names, lines[1..])
      && ContextLines(lines) == [Unmarked(lines[0])] + ContextLines(lines[1..])
  {
  }

  /** Once the hunk has a body line, added lines extend the body and every other
      line goes to `after`. */
  lemma {:induction false} LinesAfterBody(names: Names, h: Hunk, lines: seq<string>)
    requires |h.body| > 0
    requires forall i :: 0 <= i < |lines| ==> HunkLine(lines[i])
    ensures ParseFrom(names, InHunk(h), lines) ==
      Parsed([], false, InHunk(Hunk(h.path, h.anchor, h.before,
                                    h.body + AddedLines(names, lines),
                                    h.after + ContextLines(lines))))
    decreases |lines|
  {
    if |lines| > 0 {
      var line := lines[0];
      ParseHunkLine(names, h, lines);
      BucketingCons(names, lines);
      var h' := Bucket(names, h, line);
      LinesAfterBody(names, h', lines[1..]);
      if Added(line) {
        var x := Rename(names, line[1..]);
        assert h' == Hunk(h.path, h.anchor, h.before, h.body + [x], h.after);
        Regroup(h.body, [x], AddedLines(names, lines[1..]));
      } else {
        var x := Unmarked(line);
        assert h' == Hunk(h.path, h.anchor, h.before, h.body, h.after + [x]);
        Regroup(h.after, [x], ContextLines(lines[1..]));
      }
    } else {
      assert h.body + [] == h.body && h.after + [] == h.after;
    }
  }

  /** How the reference bucketing reads a stretch that opens with an added line. */
  lemma AddedFirst(names: Names, lines: seq<string>)
    requires |lines| > 0 && Added(lines[0])
    ensures FirstAdded(lines) == 0
    ensures AddedLines(names, lines) == [Rename(names, lines[0][1..])] + AddedLines(names, lines[1..])
    ensures ContextLines(lines[..0]) == []
    ensures ContextLines(lines[0..]) == ContextLines(lines[1..])
  {
    assert lines[0..] == lines;
  }

  /** How the reference bucketing reads a stretch that opens with a context line. */
  lemma ContextFirst(names: Names, lines: seq<string>)
    requires |lines| > 0 && !Added(lines[0])
    ensures var f, f' := FirstAdded(lines), FirstAdded(lines[1..]);
      && f == 1 + f'
      && ContextLines(lines[..f]) == [Unmarked(lines[0])] + ContextLines(lines[1..][..f'])
      && lines[f..] == lines[1..][f'..]
      && AddedLines(names, lines) == AddedLines(names, lines[1..])
  {
    var f, f' := FirstAdded(lines), FirstAdded(lines[1..]);
    assert lines[..f] == [lines[0]] + lines[1..][..f'];
    assert lines[..f][1..] == lines[1..][..f'];
  }

  /** The first added line of a hunk starts its body; the rest goes as after it. */
  lemma BucketedFromAdded(names: Names, h: Hunk, lines: seq<string>)
    requires |h.body| == 0
    requires forall i :: 0 <= i < |lines| ==> HunkLine(lines[i])
    requires |lines| > 0 && Added(lines[0])
    ensures ParseFrom(names, InHunk(h), lines) ==
      Parsed([], false, InHunk(Hunk(h.path, h.anchor,
                                    h.before + ContextLines(lines[..0]),
                                    AddedLines(names, lines),
                                    h.after + ContextLines(lines[0..]))))
  {
    ParseHunkLine(names, h, lines);
    var h' := Bucket(names, h, lines[0]);
    LinesAfterBody(names, h', lines[1..]);
    AddedFirst(names, lines);
    assert h'.body == [Rename(names, lines[0][1..])];
    assert h.before + [] == h'.before && h'.after == h.after;
  }

  /** Bucketing of a hunk's lines: added lines go to `body` renamed and without
      their marker; every other line loses its first character, is not renamed,
      and goes to `before` while the body is still empty and to `after` once it
      is not. Nothing is applied along the way. */
  lemma {:induction false} HunkLinesBucketed(names: Names, h: Hunk, lines: seq<string>)
    requires |h.body| == 0
    requires forall i :: 0 <= i < |lines| ==> HunkLine(lines[i])
    ensures var f := FirstAdded(lines);
      ParseFrom(names, InHunk(h), lines) ==
      Parsed([], false, InHunk(Hunk(h.path, h.anchor,
                                    h.before + ContextLines(lines[..f]),
                                    AddedLines(names, lines),
                                    h.after + ContextLines(lines[f..]))))
    decreases |lines|
  {
    if |lines| > 0 {
      var line := lines[0];
      ParseHunkLine(names, h, lines);
      var h' := Bucket(names, h, line);
      var f := FirstAdded(lines);
      if Added(line) {
        BucketedFromAdded(names, h, lines);
      } else {
        HunkLinesBucketed(names, h', lines[1..]);
        ContextFirst(names, lines);
        var f' := FirstAdded(lines[1..]);
        assert h' == Hunk(h.path, h.anchor, h.before + [Unmarked(line)], h.body, h.after);
        Regroup(h.before, [Unmarked(line)], ContextLines(lines[1..][..f']));
      }
    } else {
      assert h.before + [] == h.before && h.after + [] == h.after && h.body == [];
    }
  }

  /** A template with neither added lines nor hunk headers leaves the loop in
      its blank state, having applied nothing. */
  lemma QuietTemplateAppliesNothing(names: Names, lines: seq<string>)
    ensures (forall i :: 0 <= i < |lines| ==> !StartsWith(lines[i], "+") && !StartsWith(lines[i], "@@ ")) ==>
      ParseFrom(names, Blank, lines) == Parsed([], false, Blank)
  {
    if forall i :: 0 <= i < |lines| ==> !StartsWith(lines[i], "+") && !StartsWith(lines[i], "@@ ") {
      LinesOutsideHunkDropped(names, Blank, lines);
    }
  }

  /** Lines seen outside a hunk that are neither added lines nor hunk headers
      change nothing and apply nothing; in particular everything before the
      first `@@ ` header is dropped. */
  lemma {:induction false} LinesOutsideHunkDropped(names: Names, st: ParseState, lines: seq<string>)
    requires !st.InHunk?
    requires forall i :: 0 <= i < |lines| ==> !StartsWith(lines[i], "+") && !StartsWith(lines[i], "@@ ")
    ensures ParseFrom(names, st, lines) == Parsed([], false, st)
    decreases |lines|
  {
    if |lines| > 0 {
      assert !StartsWith(lines[0], "+") && !StartsWith(lines[0], "@@ ");
      assert !StartsWith(lines[0], "+++ ");
      LinesOutsideHunkDropped(names, st, lines[1..]);
    }
  }
}

=== FILE: query.dfy ===
/** The two object helpers the Lambda handlers share: `toQueryString`, which
    spells multi-valued parameters as a query string, and `toLowerCaseKeys`,
    which lower-cases header names. A JavaScript object is the sequence of its
    own properties in `for…in` order; `encodeURIComponent` is the parameter
    `enc`. */
module Query {
  import opened JsString

  /** A multi-valued parameter object: each key with its array of values. */
  type Params = seq<(string, seq<string>)>

  /** The pairs visited for one key: the key with each of its values, in order. */
  function Visit(k: string, values: seq<string>): (r: seq<(string, string)>)
    ensures |r| == |values|
    ensures forall j :: 0 <= j < |r| ==> r[j] == (k, values[j])
  {
    seq(|values|, j requires 0 <= j < |values| => (k, values[j]))
  }

  /** Every key/value pair the nested loops visit: keys in order, and each key
      once per value, so a multi-valued key repeats. */
  function Entries(kvpairs: Params): seq<(string, string)>
    decreases |kvpairs|
  {
    if |kvpairs| == 0 then []
    else
      var n := |kvpairs| - 1;
      Entries(kvpairs[..n]) + Visit(kvpairs[n].0, kvpairs[n].1)
  }

  /** One pair as the query string spells it: the encoded key, `=`, and the
      encoded value. */
  function Pair(enc: string -> string, e: (string, string)): string {
    enc(e.0) + "=" + enc(e.1)
  }

  /** The `result` array: one encoded pair per visited entry. */
  function Encoded(enc: string -> string, es: seq<(string, string)>): (r: seq<string>)
    ensures |r| == |es|
    ensures forall i :: 0 <= i < |r| ==> r[i] == Pair(enc, es[i])
  {
    seq(|es|, i requires 0 <= i < |es| => Pair(enc, es[i]))
  }

  /** No pairs are visited exactly when every value array is empty. */
  lemma {:induction false} EntriesEmpty(kvpairs: Params)
    ensures |Entries(kvpairs)| == 0 <==> forall i :: 0 <= i < |kvpairs| ==> |kvpairs[i].1| == 0
    decreases |kvpairs|
  {
    if |kvpairs| > 0 {
      var n := |kvpairs| - 1;
      EntriesEmpty(kvpairs[..n]);
      assert forall i :: 0 <= i < n ==> kvpairs[..n][i] == kvpairs[i];
    }
  }

  /** What `toQueryString` returns: empty exactly when there is no value at all
      (no keys, or only keys with empty arrays), and otherwise a `?` followed by
      the pairs. */
  function QueryString(enc: string -> string, kvpairs: Params): (r: string)
    ensures r == "" <==> forall i :: 0 <= i < |kvpairs| ==> |kvpairs[i].1| == 0
    ensures r != "" ==> r[0] == '?'
  {
    EntriesEmpty(kvpairs);
    var pairs := Encoded(enc, Entries(kvpairs));
    if |pairs| == 0 then "" else "?" + Join(pairs, "&")
  }

  /** `toQueryString`, loop for loop. */
  method ToQueryString(enc: string -> string, kvpairs: Params) returns (s: string)
    ensures s == QueryString(enc, kvpairs)
  {
    var result: seq<string> := [];
    var i := 0;
    while i < |kvpairs|
      invariant 0 <= i <= |kvpairs|
      invariant result == Encoded(enc, Entries(kvpairs[..i]))
    {
      var k := kvpairs[i].0;
      var values := kvpairs[i].1;
      var done := Entries(kvpairs[..i]);
      var j := 0;
      while j < |values|
        invariant 0 <= j <= |values|
        invariant result == Encoded(enc, done + Visit(k, values[..j]))
      {
        assert done + Visit(k, values[..j + 1]) == (done + Visit(k, values[..j])) + [(k, values[j])];
        result := result + [enc(k) + "=" + enc(values[j])];
        j := j + 1;
      }
      assert values[..j] == values;
      assert kvpairs[..i + 1][..i] == kvpairs[..i];
      i := i + 1;
    }
    assert kvpairs[..i] == kvpairs;
    if |result| == 0 {
      return "";
    }
    return "?" + Join(result, "&");
  }

  /** Every value of every key is visited, under its own key. */
  lemma {:induction false} EntriesComplete(kvpairs: Params, i: nat, j: nat)
    requires i < |kvpairs| && j < |kvpairs[i].1|
    ensures (kvpairs[i].0, kvpairs[i].1[j]) in Entries(kvpairs)
    decreases |kvpairs|
  {
    var n := |kvpairs| - 1;
    var v := Visit(kvpairs[n].0, kvpairs[n].1);
    if i == n {
      assert v[j] == (kvpairs[i].0, kvpairs[i].1[j]);
    } else {
      assert kvpairs[..n][i] == kvpairs[i];
      EntriesComplete(kvpairs[..n], i, j);
    }
  }

  /** Every visited pair is a key with one of its values. */
  lemma {:induction false} EntriesSound(kvpairs: Params, e: (string, string))
    requires e in Entries(kvpairs)
    ensures exists i, j :: 0 <= i < |kvpairs| && 0 <= j < |kvpairs[i].1| && e == (kvpairs[i].0, kvpairs[i].1[j])
    decreases |kvpairs|
  {
    var n := |kvpairs| - 1;
    var v := Visit(kvpairs[n].0, kvpairs[n].1);
    if e in v {
      var j :| 0 <= j < |v| && v[j] == e;
      assert e == (kvpairs[n].0, kvpairs[n].1[j]);
    } else {
      EntriesSound(kvpairs[..n], e);
      var i, j :| 0 <= i < n && 0 <= j < |kvpairs[..n][i].1| && e == (kvpairs[..n][i].0, kvpairs[..n][i].1[j]);
      assert kvpairs[..n][i] == kvpairs[i];
    }
  }

  /** An encoder that escapes the two delimiters, as `encodeURIComponent` does. */
  ghost predicate EscapesDelimiters(enc: string -> string) {
    forall s :: '&' !in enc(s) && '=' !in enc(s)
  }

  /** A reader for the query strings built here: drop the `?`, split on `&`, split
      each piece on `=`, and decode both sides. */
  function ParseQuery(dec: string -> string, q: string): (r: seq<(string, string)>)
    ensures q == "" ==> r == []
  {
    if |q| == 0 then []
    else
      var pieces := Split(q[1..], '&');
      seq(|pieces|, i requires 0 <= i < |pieces| =>
        var kv := Split(pieces[i], '=');
        (dec(kv[0]), dec(if |kv| > 1 then kv[1] else "")))
  }

  /** One encoded pair splits back at its `=`. */
  lemma PairSplits(enc: string -> string, e: (string, string))
    requires EscapesDelimiters(enc)
    ensures Split(Pair(enc, e), '=') == [enc(e.0), enc(e.1)]
    ensures '&' !in Pair(enc, e)
  {
    var parts := [enc(e.0), enc(e.1)];
    assert '=' !in enc(e.0) && '=' !in enc(e.1);
    assert '&' !in enc(e.0) && '&' !in enc(e.1);
    assert Join(parts, "=") == Pair(enc, e) by {
      assert Join(parts[1..], "=") == enc(e.1);
    }
    SplitJoin(parts, '=');
  }

  /** Round trip: with an encoder that escapes `&` and `=` and a decoder that
      undoes it, reading the query string back gives every visited pair, in
      order. */
  lemma QueryStringRoundTrip(enc: string -> string, dec: string -> string, kvpairs: Params)
    requires EscapesDelimiters(enc)
    requires forall s :: dec(enc(s)) == s
    ensures ParseQuery(dec, QueryString(enc, kvpairs)) == Entries(kvpairs)
  {
    var es := Entries(kvpairs);
    var pairs := Encoded(enc, es);
    if |pairs| > 0 {
      var q := QueryString(enc, kvpairs);
      assert q[1..] == Join(pairs, "&");
      forall i | 0 <= i < |pairs| ensures '&' !in pairs[i] {
        PairSplits(enc, es[i]);
      }
      SplitJoin(pairs, '&');
      var r := ParseQuery(dec, q);
      forall i | 0 <= i < |es| ensures r[i] == es[i] {
        PairSplits(enc, es[i]);
        assert dec(enc(es[i].0)) == es[i].0;
        assert dec(enc(es[i].1)) == es[i].1;
      }
    }
  }

  /** The one name an assignment to a plain object does not store as an own
      property: it goes to the inherited prototype setter instead. */
  const ProtoKey := "__proto__"

  /** `toLowerCaseKeys`: each key lower-cased, the later key winning when two
      collide; a key that lower-cases to `__proto__` is lost to the prototype
      setter. */
  function LowerCaseKeys<V>(kvpairs: seq<(string, V)>): (r: map<string, V>)
    ensures forall k :: k in r ==> IsLowerCase(k)
    ensures ProtoKey !in r
    decreases |kvpairs|
  {
    if |kvpairs| == 0 then map[]
    else
      var n := |kvpairs| - 1;
      var k := ToLowerCase(kvpairs[n].0);
      if k == ProtoKey then LowerCaseKeys(kvpairs[..n])
      else LowerCaseKeys(kvpairs[..n])[k := kvpairs[n].1]
  }

  /** The result's keys are exactly the lower-cased input keys other than
      `__proto__`, and each holds the value of some input key that lower-cases
      to it. */
  lemma {:induction false} LowerCaseKeysDomain<V>(kvpairs: seq<(string, V)>, k: string)
    ensures k in LowerCaseKeys(kvpairs) <==>
      k != ProtoKey && exists i :: 0 <= i < |kvpairs| && ToLowerCase(kvpairs[i].0) == k
    ensures k in LowerCaseKeys(kvpairs) ==>
      exists i :: 0 <= i < |kvpairs| && ToLowerCase(kvpairs[i].0) == k && LowerCaseKeys(kvpairs)[k] == kvpairs[i].1
    decreases |kvpairs|
  {
    if |kvpairs| > 0 {
      var n := |kvpairs| - 1;
      var last := ToLowerCase(kvpairs[n].0);
      var m := LowerCaseKeys(kvpairs[..n]);
      LowerCaseKeysDomain(kvpairs[..n], k);
      assert forall i :: 0 <= i < n ==> kvpairs[..n][i] == kvpairs[i];
      if k == last && k != ProtoKey {
        assert LowerCaseKeys(kvpairs) == m[last := kvpairs[n].1];
      } else {
        assert k in LowerCaseKeys(kvpairs) <==> k in m;
        if k in m {
          assert LowerCaseKeys(kvpairs)[k] == m[k];
          var i :| 0 <= i < n && ToLowerCase(kvpairs[..n][i].0) == k && m[k] == kvpairs[..n][i].1;
          assert kvpairs[..n][i] == kvpairs[i];
        }
      }
    }
  }

  /** Later wins: a key other than `__proto__` keeps its value unless a later
      key lower-cases to the same name. */
  lemma {:induction false} LowerCaseKeysLastWins<V>(kvpairs: seq<(string, V)>, i: nat)
    requires i < |kvpairs|
    requires ToLowerCase(kvpairs[i].0) != ProtoKey
    requires forall j :: i < j < |kvpairs| ==> ToLowerCase(kvpairs[j].0) != ToLowerCase(kvpairs[i].0)
    ensures ToLowerCase(kvpairs[i].0) in LowerCaseKeys(kvpairs)
    ensures LowerCaseKeys(kvpairs)[ToLowerCase(kvpairs[i].0)] == kvpairs[i].1
    decreases |kvpairs|
  {
    var n := |kvpairs| - 1;
    if i < n {
      assert kvpairs[..n][i] == kvpairs[i];
      assert forall j :: i < j < n ==> kvpairs[..n][j] == kvpairs[j];
      LowerCaseKeysLastWins(kvpairs[..n], i);
    }
  }

  /** A header named `__Proto__` lower-cases to `__proto__` and does not reach
      the result. */
  lemma ProtoHeaderDropped()
    ensures LowerCaseKeys([("__Proto__", "x")]) == map[]
  {
  }
}

=== FILE: renamer.dfy ===
/** The placeholder renamer: the type and variable names derived from the
    command-line argument, `escapeRegExp`, and `rename`, which replaces every
    `Foobar` and then every `foobar` in a template line. */
module Renamer {
  import opened Results
  import opened JsString

  /** The placeholder for the type-cased name. */
  const TypeToken := "Foobar"

  /** The placeholder for the value-cased name. */
  const VarToken := "foobar"

  /** The two replacement names: `targetTypeName` and `targetVarName`. */
  datatype Names = Names(typeName: string, varName: string)

  /** The names derived from the argument; `None` is the usage error raised for a
      missing or empty argument. Both names keep the argument's length and
      everything after its first character. */
  function DeriveNames(targetName: string): (r: Option<Names>)
    ensures r.None? <==> targetName == ""
    ensures r.Some? ==> |r.value.typeName| == |targetName| == |r.value.varName|
    ensures r.Some? ==> r.value.typeName[1..] == targetName[1..] == r.value.varName[1..]
    ensures r.Some? ==> r.value.typeName[0] == UpperChar(targetName[0])
    ensures r.Some? ==> r.value.varName[0] == LowerChar(targetName[0])
  {
    if targetName == "" then None
    else
      var head := targetName[..1];
      var tail := targetName[1..];
      Some(Names([UpperChar(head[0])] + tail, [LowerChar(head[0])] + tail))
  }

  /** Deriving again from either derived name yields the same pair: the type name
      and the variable name are re-casings of one another. */
  lemma DeriveNamesStable(targetName: string)
    requires targetName != ""
    ensures DeriveNames(DeriveNames(targetName).value.typeName) == DeriveNames(targetName)
    ensures DeriveNames(DeriveNames(targetName).value.varName) == DeriveNames(targetName)
  {
    var n := DeriveNames(targetName).value;
    var t := DeriveNames(n.typeName).value;
    var v := DeriveNames(n.varName).value;
    assert t.typeName == n.typeName && t.varName == n.varName by {
      assert t.typeName[1..] == n.typeName[1..];
    }
    assert v.typeName == n.typeName && v.varName == n.varName by {
      assert v.typeName[1..] == n.typeName[1..];
    }
  }

  /** The characters `escapeRegExp` puts a backslash in front of. */
  const RegExpSpecials: set<char> :=
    {'.', '*', '+', '-', '?', '^', '$', '{', '}', '(', ')', '|', '[', ']', '\\'}

  /** The literal text a pattern matches when it is built only from ordinary
      characters and backslash-escaped special characters; `None` for any other
      pattern (one with an operator, a class or another escape). */
  function LiteralOf(pattern: string): Option<string>
    decreases |pattern|
  {
    if |pattern| == 0 then Some("")
    else if pattern[0] == '\\' then
      if |pattern| >= 2 && pattern[1] in RegExpSpecials then
        match LiteralOf(pattern[2..])
        case Some(t) => Some([pattern[1]] + t)
        case None => None
      else None
    else if pattern[0] in RegExpSpecials then None
    else
      match LiteralOf(pattern[1..])
      case Some(t) => Some([pattern[0]] + t)
      case None => None
  }

  /** `escapeRegExp`: a backslash before every regular-expression special
      character, so that the escaped text, read as a pattern, matches exactly
      the original text. */
  function EscapeRegExp(s: string): (r: string)
    ensures LiteralOf(r) == Some(s)
    decreases |s|
  {
    if |s| == 0 then ""
    else
      var rest := EscapeRegExp(s[1..]);
      var r := (if s[0] in RegExpSpecials then ['\\', s[0]] else [s[0]]) + rest;
      assert (if s[0] in RegExpSpecials then r[2..] else r[1..]) == rest;
      assert [s[0]] + s[1..] == s;
      r
  }

  /** A global regular-expression replace whose pattern denotes a non-empty
      literal. */
  function ReplacePattern(line: string, pattern: string, rep: string): string
    requires LiteralOf(pattern).Some? && |LiteralOf(pattern).value| > 0
  {
    RegExpReplaceAll(line, LiteralOf(pattern).value, rep)
  }

  /** Neither name holds a dollar sign, so neither replacement expands a
      substitution pattern. */
  predicate DollarFree(names: Names) {
    '$' !in names.typeName && '$' !in names.varName
  }

  /** The two global replaces `rename` performs: a line without placeholders
      comes back unchanged, and for names without a dollar sign each replace is
      the literal replace-all. */
  lemma ReplaceBothFacts(names: Names, line: string)
    ensures var r := RegExpReplaceAll(RegExpReplaceAll(line, TypeToken, names.typeName), VarToken, names.varName);
      && ((forall j :: !OccursAt(line, TypeToken, j) && !OccursAt(line, VarToken, j)) ==> r == line)
      && (DollarFree(names) ==>
          r == ReplaceAll(ReplaceAll(line, TypeToken, names.typeName), VarToken, names.varName))
  {
    var typed := RegExpReplaceAll(line, TypeToken, names.typeName);
    if forall j :: !OccursAt(line, TypeToken, j) && !OccursAt(line, VarToken, j) {
      ReplaceFromAbsent(line, TypeToken, names.typeName, 0);
      assert typed == line;
      ReplaceFromAbsent(line, VarToken, names.varName, 0);
    }
    if DollarFree(names) {
      ReplaceFromLiteral(line, TypeToken, names.typeName, 0);
      ReplaceFromLiteral(typed, VarToken, names.varName, 0);
      assert line[0..] == line && typed[0..] == typed;
    }
  }

  /** `rename`: every `Foobar` becomes the type name, then every `foobar` the
      variable name. For names without a dollar sign this is the literal
      replace-all of each placeholder. */
  function Rename(names: Names, line: string): (r: string)
    ensures DollarFree(names) ==>
      r == ReplaceAll(ReplaceAll(line, TypeToken, names.typeName), VarToken, names.varName)
  {
    ReplaceBothFacts(names, line);
    RegExpReplaceAll(RegExpReplaceAll(line, TypeToken, names.typeName), VarToken, names.varName)
  }

  /** A line holding neither placeholder is left unchanged, whatever the names. */
  lemma RenameIdentity(names: Names, line: string)
    requires forall j :: !OccursAt(line, TypeToken, j) && !OccursAt(line, VarToken, j)
    ensures Rename(names, line) == line
  {
    ReplaceBothFacts(names, line);
  }

  /** The source renames through regular expressions built with `escapeRegExp`;
      those patterns denote exactly the placeholders, so `Rename` is what the two
      `replace` calls compute, dollar patterns in the names included. */
  lemma RenameThroughEscapedPatterns(names: Names, line: string)
    ensures LiteralOf(EscapeRegExp(TypeToken)) == Some(TypeToken)
    ensures LiteralOf(EscapeRegExp(VarToken)) == Some(VarToken)
    ensures Rename(names, line) ==
      ReplacePattern(ReplacePattern(line, EscapeRegExp(TypeToken), names.typeName),
                     EscapeRegExp(VarToken), names.varName)
  {
  }

  /** The argument `A$&` gives the type name `A$&` and the variable name `a$&`. */
  lemma DollarNames()
    ensures DeriveNames("A$&") == Some(Names("A$&", "a$&"))
  {
    var t := "A$&";
    assert t[..1][0] == 'A' && t[1..] == "$&";
    assert [UpperChar('A')] + "$&" == t;
    assert [LowerChar('A')] + "$&" == "a$&";
  }

  /** A type name holding `$&` puts the placeholder itself back: with the
      argument `A$&`, `Foobar` becomes `AFoobar`, not `A$&`. */
  lemma DollarTypeNameExpands()
    ensures RegExpReplaceAll("Foobar", TypeToken, "A$&") == "AFoobar"
  {
    var line := "Foobar";
    assert Substitute("", TypeToken, "", "") == "";
    assert Substitute("$&", TypeToken, "", "") == TypeToken;
    assert Substitute("A$&", TypeToken, "", "") == "AFoobar";
    assert OccursAt(line, TypeToken, 0);
    assert line[..0] == "" && line[6..] == "";
    assert ReplaceFrom(line, TypeToken, "A$&", 6) == "";
  }

  /** The whole of `rename` on the line `Foobar` for the argument `A$&`: the
      type name's `$&` expands to the match, and the result holds no `foobar`
      for the second replace to touch. */
  lemma DollarNameExpands()
    ensures DeriveNames("A$&") == Some(Names("A$&", "a$&"))
    ensures Rename(Names("A$&", "a$&"), "Foobar") == "AFoobar"
  {
    DollarNames();
    DollarTypeNameExpands();
    var typed := "AFoobar";
    forall j ensures !OccursAt(typed, VarToken, j) {
      if 0 <= j && j + |VarToken| <= |typed| {
        assert typed[j..j + |VarToken|][0] == typed[j] != 'f';
      }
    }
    ReplaceFromAbsent(typed, VarToken, "a$&", 0);
  }

  /** Renaming in terms of split and join: the line is cut at every `Foobar`, glued
      back with the type name, cut again at every `foobar` and glued with the
      variable name, when the names hold no dollar sign. The cut points are
      exactly the placeholder occurrences, since gluing the pieces with the
      placeholder gives back the text and no piece still holds one. */
  lemma RenameSplitsAtPlaceholders(names: Names, line: string)
    ensures var typed := Join(SplitOn(line, TypeToken), names.typeName);
      && (DollarFree(names) ==> Rename(names, line) == Join(SplitOn(typed, VarToken), names.varName))
      && Join(SplitOn(line, TypeToken), TypeToken) == line
      && Join(SplitOn(typed, VarToken), VarToken) == typed
  {
    var typed := ReplaceAll(line, TypeToken, names.typeName);
    ReplaceAllIsSplitJoin(line, TypeToken, names.typeName);
    ReplaceAllIsSplitJoin(typed, VarToken, names.varName);
    JoinSplitOn(line, TypeToken);
    JoinSplitOn(typed, VarToken);
  }
}

=== FILE: request_url.dfy ===
/** The request URL the two Lambda handlers rebuild from an API Gateway event.
    The plain handler uses `event.path` and always appends `toQueryString`; the
    CRUD handler falls back through `path`, `rawPath` and
    `requestContext.http.path`, and appends `'?' + queryString` only when the
    query string is non-empty. Missing fields are JavaScript `undefined`, which
    `||` skips and `+` spells as the text "undefined". */
module RequestUrl {
  import opened Results
  import opened JsString
  import opened Query

  /** `event.requestContext.http` */
  datatype HttpContext = HttpContext(path: Option<string>)

  /** `event.requestContext` */
  datatype RequestContext = RequestContext(domainName: Option<string>, http: Option<HttpContext>)

  /** The event fields the URL is built from; `None` is a missing field. The
      header object is its properties in order. */
  datatype Event = Event(
    headers: Option<seq<(string, string)>>,
    path: Option<string>,
    rawPath: Option<string>,
    requestContext: Option<RequestContext>,
    multiValueQueryStringParameters: Option<Params>,
    rawQueryString: Option<string>)

  /** A string or `undefined` as `+` spells it. */
  function Text(v: Option<string>): (r: string)
    ensures v.Some? ==> r == v.value
    ensures v.None? ==> r == "undefined"
  {
    match v
    case None => "undefined"
    case Some(s) => s
  }

  /** JavaScript truthiness of a string or `undefined`: only a non-empty string. */
  predicate Truthy(v: Option<string>) {
    v.Some? && v.value != ""
  }

  /** `a || b` on strings or `undefined`. */
  function Or(a: Option<string>, b: Option<string>): (r: Option<string>)
    ensures Truthy(a) ==> r == a
    ensures !Truthy(a) ==> r == b
  {
    if Truthy(a) then a else b
  }

  /** `obj[name]` on an object with distinct property names. */
  function Lookup(props: seq<(string, string)>, name: string): (r: Option<string>)
    ensures r.None? <==> forall i :: 0 <= i < |props| ==> props[i].0 != name
    ensures r.Some? ==> exists i :: 0 <= i < |props| && props[i] == (name, r.value)
    decreases |props|
  {
    if |props| == 0 then None
    else if props[0].0 == name then Some(props[0].1)
    else
      var r := Lookup(props[1..], name);
      assert forall i :: 0 <= i < |props[1..]| ==> props[1..][i] == props[i + 1];
      r
  }

  /** The header object, an empty one when the event has none. */
  function Headers(e: Event): seq<(string, string)> {
    if e.headers.Some? then e.headers.value else []
  }

  /** The scheme: the CloudFront-Forwarded-Proto header when it is non-empty,
      otherwise `https`. */
  function Proto(e: Event): (r: string)
    ensures Truthy(Lookup(Headers(e), "CloudFront-Forwarded-Proto")) ==>
      r == Lookup(Headers(e), "CloudFront-Forwarded-Proto").value
    ensures !Truthy(Lookup(Headers(e), "CloudFront-Forwarded-Proto")) ==> r == "https"
    ensures r != ""
  {
    Text(Or(Lookup(Headers(e), "CloudFront-Forwarded-Proto"), Some("https")))
  }

  /** The host: the Host header when it is non-empty, otherwise the request
      context's domain name, `undefined` when there is no request context. */
  function Host(e: Event): Option<string> {
    Or(Lookup(Headers(e), "Host"), if e.requestContext.Some? then e.requestContext.value.domainName else None)
  }

  /** Scheme and host: what precedes the path in both handlers. */
  function Origin(e: Event): string {
    Proto(e) + "://" + Text(Host(e))
  }

  /** The plain handler's URL (`templates/lambda.js`): origin, `event.path`, and
      the query string of the multi-value parameters, `{}` when they are missing. */
  function Url(enc: string -> string, e: Event): (r: string)
    ensures var base := Origin(e) + Text(e.path); |r| >= |base| && r[..|base|] == base
    ensures var base := Origin(e) + Text(e.path); |r| > |base| ==> r[|base|] == '?'
  {
    var params := if e.multiValueQueryStringParameters.Some? then e.multiValueQueryStringParameters.value else [];
    Origin(e) + Text(e.path) + QueryString(enc, params)
  }

  /** The plain handler's URL has a query part exactly when some parameter has a
      value; without parameters it is origin and path alone. */
  lemma UrlQueryPart(enc: string -> string, e: Event)
    ensures var params := if e.multiValueQueryStringParameters.Some? then e.multiValueQueryStringParameters.value else [];
      && (Url(enc, e) == Origin(e) + Text(e.path) <==>
          forall i :: 0 <= i < |params| ==> |params[i].1| == 0)
      && (e.multiValueQueryStringParameters.None? ==> Url(enc, e) == Origin(e) + Text(e.path))
  {
    var params := if e.multiValueQueryStringParameters.Some? then e.multiValueQueryStringParameters.value else [];
    var q := QueryString(enc, params);
    assert |Url(enc, e)| == |Origin(e) + Text(e.path)| + |q|;
    if Url(enc, e) == Origin(e) + Text(e.path) {
      assert q == "";
    }
  }

  /** The first non-empty of `path`, `rawPath` and the HTTP context's path;
      when the first two are empty or missing, the third as it is, `undefined`
      when the request context or its HTTP part is missing. So the path is
      non-empty exactly when one of the three is. */
  function RequestPath(e: Event): (r: Option<string>)
    ensures Truthy(e.path) ==> r == e.path
    ensures !Truthy(e.path) && Truthy(e.rawPath) ==> r == e.rawPath
    ensures !Truthy(e.path) && !Truthy(e.rawPath) ==>
      r == (if e.requestContext.Some? && e.requestContext.value.http.Some?
            then e.requestContext.value.http.value.path else None)
    ensures Truthy(r) <==>
      || Truthy(e.path) || Truthy(e.rawPath)
      || (e.requestContext.Some? && e.requestContext.value.http.Some? && Truthy(e.requestContext.value.http.value.path))
  {
    Or(e.path, Or(e.rawPath,
      if e.requestContext.Some? && e.requestContext.value.http.Some?
      then e.requestContext.value.http.value.path else None))
  }

  /** The CRUD handler's query string: `toQueryString` of the multi-value
      parameters when the event has them, which is empty or starts with `?`;
      otherwise the raw query string as it is. */
  function QueryStringOf(enc: string -> string, e: Event): (r: Option<string>)
    ensures e.multiValueQueryStringParameters.Some? ==> r.Some? && (r.value == "" || r.value[0] == '?')
    ensures e.multiValueQueryStringParameters.Some? ==>
      (r.value == "" <==> forall i :: 0 <= i < |e.multiValueQueryStringParameters.value| ==>
                            |e.multiValueQueryStringParameters.value[i].1| == 0)
    ensures e.multiValueQueryStringParameters.None? ==> r == e.rawQueryString
  {
    if e.multiValueQueryStringParameters.Some? then Some(QueryString(enc, e.multiValueQueryStringParameters.value))
    else e.rawQueryString
  }

  /** The CRUD handler's URL as written: `'?' + queryString` when the query string
      is non-empty. It starts with origin and request path, and is exactly
      those when there is no query string. */
  function CrudUrl(enc: string -> string, e: Event): (r: string)
    ensures var base := Origin(e) + Text(RequestPath(e)); |r| >= |base| && r[..|base|] == base
    ensures r == Origin(e) + Text(RequestPath(e)) <==> !Truthy(QueryStringOf(enc, e))
  {
    var q := QueryStringOf(enc, e);
    var base := Origin(e) + Text(RequestPath(e));
    var r := base + (if Truthy(q) then "?" + q.value else "");
    assert Truthy(q) ==> |r| > |base|;
    r
  }

  /** On the multi-value path with at least one value, `toQueryString` already
      starts with `?` and the handler adds another: the URL carries `??`. */
  lemma CrudUrlDoubleMark(enc: string -> string, e: Event)
    requires e.multiValueQueryStringParameters.Some?
    requires Entries(e.multiValueQueryStringParameters.value) != []
    ensures CrudUrl(enc, e) ==
      Origin(e) + Text(RequestPath(e)) + "??" + Join(Encoded(enc, Entries(e.multiValueQueryStringParameters.value)), "&")
  {
    var q := QueryString(enc, e.multiValueQueryStringParameters.value);
    assert q[0] == '?';
    assert "?" + q == "??" + Join(Encoded(enc, Entries(e.multiValueQueryStringParameters.value)), "&");
  }

  /** The CRUD handler's URL with one `?`: the multi-value query string is used as
      `toQueryString` returns it, and only a raw query string gets a `?` added. */
  function CrudUrlIntended(enc: string -> string, e: Event): string {
    var tail :=
      if e.multiValueQueryStringParameters.Some? then QueryString(enc, e.multiValueQueryStringParameters.value)
      else if Truthy(e.rawQueryString) then "?" + e.rawQueryString.value
      else "";
    Origin(e) + Text(RequestPath(e)) + tail
  }

  /** The corrected URL differs from the one as written exactly on the
      multi-value path with some value, and on an event with a non-empty `path`
      and multi-value parameters it is the plain handler's URL. */
  lemma CrudUrlIntendedAgrees(enc: string -> string, e: Event)
    ensures CrudUrlIntended(enc, e) != CrudUrl(enc, e) <==>
      e.multiValueQueryStringParameters.Some? && Entries(e.multiValueQueryStringParameters.value) != []
    ensures Truthy(e.path) && e.multiValueQueryStringParameters.Some? ==> CrudUrlIntended(enc, e) == Url(enc, e)
  {
    if e.multiValueQueryStringParameters.Some? && Entries(e.multiValueQueryStringParameters.value) != [] {
      var p := Origin(e) + Text(RequestPath(e));
      var j := Join(Encoded(enc, Entries(e.multiValueQueryStringParameters.value)), "&");
      CrudUrlDoubleMark(enc, e);
      assert CrudUrlIntended(enc, e) == p + "?" + j;
      assert |CrudUrl(enc, e)| == |p + "?" + j| + 1;
    }
  }
}

=== FILE: resolver.dfy ===
/** `tryPatching`: where a hunk's body goes in an existing file. The file's
    first line starting with the anchor is found, the `before` lines are looked
    up one after another with `indexOf` from there, and the body is spliced in
    after the last of them; failing that, the `after` lines are looked up and
    the body is spliced at a position computed from the `before` indexes.
    `InsertionPoint` is the code as written; `InsertionPointIntended` places the
    body right after the `before` lines or right above the `after` lines, both
    looked up from the anchor. */
module Resolver {
  import opened Results
  import opened JsString
  import opened JsArray
  import opened Hunks

  /** Why a patch fails: no line starts with the anchor, or the context lines
      cannot all be found (both end in `raiseError`). */
  datatype PatchError = AnchorNotFound | AnchorMismatch

  /** The indexes returned by a run of `indexOf` searches, each starting where
      the previous one stopped, and the shared `fromIndex` cursor after them. */
  datatype Chained = Chained(indexes: seq<int>, cursor: int)

  /** The context lines looked up one after another with `indexOf`, each search
      starting at the index the previous one returned and the first at `cursor`.
      Every index is -1 or a position holding its line. */
  function SearchChain(src: seq<string>, ctx: seq<string>, cursor: int): (c: Chained)
    ensures |c.indexes| == |ctx|
    ensures forall i :: 0 <= i < |ctx| ==>
      c.indexes[i] == -1 || (0 <= c.indexes[i] < |src| && src[c.indexes[i]] == ctx[i])
    ensures |ctx| == 0 ==> c.cursor == cursor
    ensures |ctx| > 0 ==> c.cursor == c.indexes[|ctx| - 1]
    decreases |ctx|
  {
    if |ctx| == 0 then Chained([], cursor)
    else
      var i := IndexOf(src, ctx[0], cursor);
      var rest := SearchChain(src, ctx[1..], i);
      Chained([i] + rest.indexes, rest.cursor)
  }

  /** No lookup of the chain missed. */
  predicate AllFound(indexes: seq<int>) {
    -1 !in indexes
  }

  /** Reference meaning of a successful chain: the lines of `ctx` occur in `src`
      in order at positions from `from` up to but excluding `end`, where
      consecutive lines may share a position (`indexOf` starts its search at the
      previous match itself). */
  predicate InOrderBelow(src: seq<string>, ctx: seq<string>, from: nat, end: nat)
    decreases |ctx|
  {
    |ctx| == 0 ||
    exists i :: from <= i < end && i < |src| && src[i] == ctx[0] && InOrderBelow(src, ctx[1..], i, end)
  }

  /** The lines of `ctx` occur in order in the file from `from` on. */
  predicate Embeds(src: seq<string>, ctx: seq<string>, from: nat) {
    InOrderBelow(src, ctx, from, |src|)
  }

  /** An occurrence from a later position is one from an earlier position. */
  lemma InOrderMonotone(src: seq<string>, ctx: seq<string>, from: nat, from': nat, end: nat)
    requires from' <= from
    requires InOrderBelow(src, ctx, from, end)
    ensures InOrderBelow(src, ctx, from', end)
  {
    if |ctx| > 0 {
      var i :| from <= i < end && i < |src| && src[i] == ctx[0] && InOrderBelow(src, ctx[1..], i, end);
      assert from' <= i;
    }
  }

  /** A successful chain from a non-negative cursor runs forward: its first
      index is at or after the cursor it starts from, and every index lies
      between its first one and the cursor it leaves. */
  lemma {:induction false} ChainForward(src: seq<string>, ctx: seq<string>, from: int)
    requires from >= 0 && |ctx| > 0
    requires AllFound(SearchChain(src, ctx, from).indexes)
    ensures forall i :: 0 <= i < |ctx| ==>
      from <= SearchChain(src, ctx, from).indexes[0] <= SearchChain(src, ctx, from).indexes[i]
           <= SearchChain(src, ctx, from).cursor
    decreases |ctx|
  {
    var c := SearchChain(src, ctx, from);
    var i0 := IndexOf(src, ctx[0], from);
    var rest := SearchChain(src, ctx[1..], i0);
    assert c.indexes == [i0] + rest.indexes;
    assert i0 != -1 by { assert c.indexes[0] == i0; }
    if |ctx| > 1 {
      assert AllFound(rest.indexes) by {
        forall k | 0 <= k < |rest.indexes| ensures rest.indexes[k] != -1 {
          assert rest.indexes[k] == c.indexes[k + 1];
        }
      }
      ChainForward(src, ctx[1..], i0);
      assert c.cursor == rest.cursor && c.indexes[0] == i0;
      forall i | 0 <= i < |ctx| ensures from <= c.indexes[0] <= c.indexes[i] <= c.cursor {
        if i > 0 {
          assert c.indexes[i] == rest.indexes[i - 1];
          assert i0 <= rest.indexes[0] <= rest.indexes[i - 1] <= rest.cursor;
        } else {
          assert i0 <= rest.indexes[0] <= rest.cursor;
        }
      }
    }
  }

  /** Each element is at most every later one. */
  predicate NonDecreasing(xs: seq<int>) {
    forall i, j :: 0 <= i <= j < |xs| ==> xs[i] <= xs[j]
  }

  /** A non-decreasing sequence stays so with an element in front that is at
      most its first one. */
  lemma ConsNonDecreasing(x: int, xs: seq<int>)
    requires NonDecreasing(xs)
    requires |xs| > 0 ==> x <= xs[0]
    ensures NonDecreasing([x] + xs)
  {
  }

  /** A successful chain from a non-negative cursor never goes backwards: each
      index is at most every later one. */
  lemma {:induction false} ChainMonotone(src: seq<string>, ctx: seq<string>, from: int)
    requires from >= 0
    requires AllFound(SearchChain(src, ctx, from).indexes)
    ensures NonDecreasing(SearchChain(src, ctx, from).indexes)
    decreases |ctx|
  {
    if |ctx| > 0 {
      var c := SearchChain(src, ctx, from);
      var i0 := IndexOf(src, ctx[0], from);
      var rest := SearchChain(src, ctx[1..], i0);
      assert c.indexes == [i0] + rest.indexes;
      assert i0 != -1 by { assert c.indexes[0] == i0; }
      assert AllFound(rest.indexes) by {
        forall k | 0 <= k < |rest.indexes| ensures rest.indexes[k] != -1 {
          assert rest.indexes[k] == c.indexes[k + 1];
        }
      }
      ChainMonotone(src, ctx[1..], i0);
      if |ctx| > 1 {
        ChainForward(src, ctx[1..], i0);
        assert i0 <= rest.indexes[0];
      }
      ConsNonDecreasing(i0, rest.indexes);
    }
  }

  /** Soundness of the chain: when every line is found, the lines occur in order
      within the file up to and including the last match. */
  lemma {:induction false} ChainSound(src: seq<string>, ctx: seq<string>, from: int, m: nat)
    requires from >= 0
    requires AllFound(SearchChain(src, ctx, from).indexes)
    requires m <= |src|
    requires |ctx| > 0 ==> SearchChain(src, ctx, from).cursor < m
    ensures InOrderBelow(src, ctx, from, m)
    decreases |ctx|
  {
    if |ctx| > 0 {
      var c := SearchChain(src, ctx, from);
      var i0 := IndexOf(src, ctx[0], from);
      var rest := SearchChain(src, ctx[1..], i0);
      assert c.indexes == [i0] + rest.indexes;
      assert i0 != -1 by { assert c.indexes[0] == i0; }
      assert AllFound(rest.indexes) by {
        forall k | 0 <= k < |rest.indexes| ensures rest.indexes[k] != -1 {
          assert rest.indexes[k] == c.indexes[k + 1];
        }
      }
      ChainForward(src, ctx, from);
      ChainSound(src, ctx[1..], i0, m);
    }
  }

  /** Completeness and leftmost choice: whenever the lines occur in order within
      the first `m` lines, the chain finds them all and stops before line `m`. */
  lemma {:induction false} ChainLeftmost(src: seq<string>, ctx: seq<string>, from: int, m: nat)
    requires from >= 0 && m <= |src|
    requires InOrderBelow(src, ctx, from, m)
    ensures AllFound(SearchChain(src, ctx, from).indexes)
    ensures |ctx| > 0 ==> SearchChain(src, ctx, from).cursor < m
    decreases |ctx|
  {
    if |ctx| > 0 {
      var w :| from <= w < m && w < |src| && src[w] == ctx[0] && InOrderBelow(src, ctx[1..], w, m);
      var i0 := IndexOf(src, ctx[0], from);
      assert i0 != -1 && i0 <= w;
      InOrderMonotone(src, ctx[1..], w, i0, m);
      ChainLeftmost(src, ctx[1..], i0, m);
      var c := SearchChain(src, ctx, from);
      var rest := SearchChain(src, ctx[1..], i0);
      assert c.indexes == [i0] + rest.indexes;
    }
  }

  /** The chain succeeds from a non-negative cursor exactly when the lines
      occur in order from that cursor on. */
  lemma SearchChainComplete(src: seq<string>, ctx: seq<string>, from: int)
    requires from >= 0
    ensures AllFound(SearchChain(src, ctx, from).indexes) <==> Embeds(src, ctx, from)
  {
    if AllFound(SearchChain(src, ctx, from).indexes) {
      ChainSound(src, ctx, from, |src|);
    }
    if Embeds(src, ctx, from) {
      ChainLeftmost(src, ctx, from, |src|);
    }
  }

  /** From a cursor at -1 or on the last line, `indexOf` looks only at the last
      line, so the chain finds its lines exactly when all of them equal the last
      line, and the cursor stays at -1 or on the last line. */
  lemma {:induction false} ChainFromEnd(src: seq<string>, ctx: seq<string>, cursor: int)
    requires |src| > 0
    requires cursor == -1 || cursor == |src| - 1
    ensures var c := SearchChain(src, ctx, cursor);
      && (AllFound(c.indexes) <==> forall i :: 0 <= i < |ctx| ==> ctx[i] == src[|src| - 1])
      && (c.cursor == -1 || c.cursor == |src| - 1)
    decreases |ctx|
  {
    if |ctx| > 0 {
      var i0 := IndexOf(src, ctx[0], cursor);
      assert SearchStart(|src|, cursor) == |src| - 1;
      assert i0 == (if src[|src| - 1] == ctx[0] then |src| - 1 else -1);
      ChainFromEnd(src, ctx[1..], i0);
      var c := SearchChain(src, ctx, cursor);
      var rest := SearchChain(src, ctx[1..], i0);
      assert c.indexes == [i0] + rest.indexes;
      if AllFound(c.indexes) {
        forall i | 0 <= i < |ctx| ensures ctx[i] == src[|src| - 1] {
          if i > 0 {
            assert rest.indexes[i - 1] == c.indexes[i];
            assert ctx[1..][i - 1] == ctx[i];
          } else {
            assert c.indexes[0] == i0;
          }
        }
      }
      if forall i :: 0 <= i < |ctx| ==> ctx[i] == src[|src| - 1] {
        assert forall i :: 0 <= i < |ctx| - 1 ==> ctx[1..][i] == src[|src| - 1] by {
          forall i | 0 <= i < |ctx| - 1 ensures ctx[1..][i] == src[|src| - 1] {
            assert ctx[1..][i] == ctx[i + 1];
          }
        }
      }
    }
  }

  /** Once a search in the chain misses, the cursor it leaves is -1 or the last
      line. */
  lemma {:induction false} ChainMissCursor(src: seq<string>, ctx: seq<string>, cursor: int)
    requires |src| > 0
    requires !AllFound(SearchChain(src, ctx, cursor).indexes)
    ensures SearchChain(src, ctx, cursor).cursor == -1 ||
            SearchChain(src, ctx, cursor).cursor == |src| - 1
    decreases |ctx|
  {
    var c := SearchChain(src, ctx, cursor);
    var i0 := IndexOf(src, ctx[0], cursor);
    var rest := SearchChain(src, ctx[1..], i0);
    assert c.indexes == [i0] + rest.indexes;
    if i0 == -1 {
      ChainFromEnd(src, ctx[1..], i0);
    } else {
      ChainMissCursor(src, ctx[1..], i0);
    }
  }

  /** Lines 84-107 as written: the splice position, or why the patch fails. */
  function InsertionPoint(h: Hunk, src: seq<string>): (r: Result<nat, PatchError>)
    requires h.anchor.Some?
    ensures r.Success? ==> r.value <= |src|
  {
    var from := FindIndex(src, h.anchor.value);
    if from == -1 then Failure(AnchorNotFound)
    else
      var b := SearchChain(src, h.before, from);
      if AllFound(b.indexes) then Success(SpliceStart(|src|, Plus(MathMax(b.indexes), 1)))
      else AfterLookup(h, src, b)
  }

  /** Lines 97-107 as written: the `after` lookup continues from the cursor the
      `before` lookup `b` left, and the splice position is computed from the
      `before` indexes. */
  function AfterLookup(h: Hunk, src: seq<string>, b: Chained): (r: Result<nat, PatchError>)
    ensures r.Success? ==> r.value <= |src|
    ensures r.Success? <==> Embeds(src, h.after, SearchStart(|src|, b.cursor))
    ensures r.Failure? ==> r.error == AnchorMismatch
  {
    ChainFromStart(src, h.after, b.cursor);
    SearchChainComplete(src, h.after, SearchStart(|src|, b.cursor));
    var a := SearchChain(src, h.after, b.cursor);
    if AllFound(a.indexes) then Success(SpliceStart(|src|, Plus(MathMin(b.indexes), -1)))
    else Failure(AnchorMismatch)
  }

  /** A chain started from any cursor finds what it finds started from the
      position `indexOf` actually begins its first search at. */
  lemma ChainFromStart(src: seq<string>, ctx: seq<string>, cursor: int)
    ensures SearchChain(src, ctx, cursor).indexes == SearchChain(src, ctx, SearchStart(|src|, cursor)).indexes
  {
  }

  /** The largest index of a successful forward chain is the cursor it leaves. */
  lemma ChainMax(src: seq<string>, ctx: seq<string>, from: int)
    requires from >= 0 && |ctx| > 0
    requires AllFound(SearchChain(src, ctx, from).indexes)
    ensures var c := SearchChain(src, ctx, from);
      MathMax(c.indexes) == Finite(c.cursor) && 0 <= c.cursor < |src|
  {
    var c := SearchChain(src, ctx, from);
    ChainForward(src, ctx, from);
    MathMaxIsMaximum(c.indexes);
    var r := MathMax(c.indexes);
    assert c.indexes[|ctx| - 1] in c.indexes;
    var k :| 0 <= k < |ctx| && c.indexes[k] == r.n;
  }

  /** The smallest index of a successful forward chain is its first one. */
  lemma ChainMin(src: seq<string>, ctx: seq<string>, from: int)
    requires from >= 0 && |ctx| > 0
    requires AllFound(SearchChain(src, ctx, from).indexes)
    ensures var c := SearchChain(src, ctx, from);
      MathMin(c.indexes) == Finite(c.indexes[0]) && 0 <= c.indexes[0] < |src|
  {
    var c := SearchChain(src, ctx, from);
    ChainForward(src, ctx, from);
    MathMinIsMinimum(c.indexes);
    var r := MathMin(c.indexes);
    var k :| 0 <= k < |ctx| && c.indexes[k] == r.n;
    assert c.indexes[0] in c.indexes;
  }

  /** A missed chain's smallest index is -1. */
  lemma MissMin(src: seq<string>, ctx: seq<string>, cursor: int)
    requires !AllFound(SearchChain(src, ctx, cursor).indexes)
    ensures MathMin(SearchChain(src, ctx, cursor).indexes) == Finite(-1)
  {
    var c := SearchChain(src, ctx, cursor);
    MathMinIsMinimum(c.indexes);
    var r := MathMin(c.indexes);
    var k :| 0 <= k < |c.indexes| && c.indexes[k] == -1;
    var j :| 0 <= j < |c.indexes| && c.indexes[j] == r.n;
    assert r.n <= c.indexes[k];
  }

  /** The patch fails with `AnchorNotFound` exactly when no line of the file
      starts with the anchor. */
  lemma AnchorNotFoundExactly(h: Hunk, src: seq<string>)
    requires h.anchor.Some?
    ensures InsertionPoint(h, src) == Failure(AnchorNotFound) <==>
      forall i :: 0 <= i < |src| ==> !StartsWith(src[i], h.anchor.value)
    ensures InsertionPointIntended(h, src) == Failure(AnchorNotFound) <==>
      forall i :: 0 <= i < |src| ==> !StartsWith(src[i], h.anchor.value)
  {
    var from := FindIndex(src, h.anchor.value);
    if from != -1 {
      var b := SearchChain(src, h.before, from);
      if !AllFound(b.indexes) {
        var a := SearchChain(src, h.after, b.cursor);
      }
    }
  }

  /** When the `before` lines occur in order from the anchor line on, the chain
      finds them all, its largest index is its last match, the lines occur in
      order up to and including that match, and in no shorter stretch: any `m`
      below which they occur in order lies beyond the last match. */
  lemma AfterShortestBeforePrefix(src: seq<string>, before: seq<string>, from: int, m: nat)
    requires from >= 0 && |before| > 0
    requires Embeds(src, before, from)
    ensures var c := SearchChain(src, before, from);
      && AllFound(c.indexes)
      && MathMax(c.indexes) == Finite(c.cursor)
      && c.cursor < |src|
      && InOrderBelow(src, before, from, c.cursor + 1)
      && (m <= |src| && InOrderBelow(src, before, from, m) ==> c.cursor < m)
  {
    var c := SearchChain(src, before, from);
    SearchChainComplete(src, before, from);
    ChainMax(src, before, from);
    ChainSound(src, before, from, c.cursor + 1);
    if m <= |src| && InOrderBelow(src, before, from, m) {
      ChainLeftmost(src, before, from, m);
    }
  }

  /** As written, when the `before` lines occur in order from the anchor line,
      the body goes right after the shortest stretch of the file from its start
      that holds them in order, whatever the `after` lines are: they occur in
      order below the insertion point, and below any `m` they occur in order
      below, the insertion point is at most `m`. */
  lemma WrittenBeforeMatch(h: Hunk, src: seq<string>, m: nat)
    requires h.anchor.Some? && |h.before| > 0
    requires FindIndex(src, h.anchor.value) != -1
    requires Embeds(src, h.before, FindIndex(src, h.anchor.value))
    ensures var r := InsertionPoint(h, src);
      var from := FindIndex(src, h.anchor.value);
      && r.Success?
      && InOrderBelow(src, h.before, from, r.value)
      && (m <= |src| && InOrderBelow(src, h.before, from, m) ==> r.value <= m)
  {
    var from := FindIndex(src, h.anchor.value);
    var c := SearchChain(src, h.before, from);
    AfterShortestBeforePrefix(src, h.before, from, m);
    assert InsertionPoint(h, src) == Success(c.cursor + 1) by {
      assert SpliceStart(|src|, Plus(MathMax(c.indexes), 1)) == c.cursor + 1;
    }
  }

  /** As written, a hunk without `before` lines goes to the top of the file once
      the anchor is found: `Math.max()` of nothing is -Infinity. */
  lemma WrittenEmptyBefore(h: Hunk, src: seq<string>)
    requires h.anchor.Some? && |h.before| == 0
    requires FindIndex(src, h.anchor.value) != -1
    ensures InsertionPoint(h, src) == Success(0)
  {
  }

  /** As written, once the `before` lines miss, the `after` lookup starts from
      the cursor the failed lookup left, which sees only the file's last line: it
      succeeds exactly when every `after` line equals the last line, and the body
      then goes two lines above the end, since `Math.min` over the `before`
      indexes is -1. Otherwise the patch fails with `AnchorMismatch`. */
  lemma WrittenBeforeMiss(h: Hunk, src: seq<string>)
    requires h.anchor.Some?
    requires FindIndex(src, h.anchor.value) != -1
    requires !Embeds(src, h.before, FindIndex(src, h.anchor.value))
    ensures InsertionPoint(h, src) ==
      if forall i :: 0 <= i < |h.after| ==> h.after[i] == src[|src| - 1]
      then Success(if |src| >= 2 then |src| - 2 else 0)
      else Failure(AnchorMismatch)
  {
    var from := FindIndex(src, h.anchor.value);
    var b := SearchChain(src, h.before, from);
    assert !AllFound(b.indexes) by {
      SearchChainComplete(src, h.before, from);
    }
    assert |src| > 0;
    assert b.cursor == -1 || b.cursor == |src| - 1 by {
      ChainMissCursor(src, h.before, from);
    }
    assert MathMin(b.indexes) == Finite(-1) by {
      MissMin(src, h.before, from);
    }
    assert InsertionPoint(h, src) == AfterLookup(h, src, b);
    AfterLookupFromEnd(h, src, b);
  }

  /** The `after` lookup from a cursor at -1 or on the last line, with -1 the
      smallest `before` index: it finds its lines exactly when all of them equal
      the file's last line, and the splice position is then two lines above the
      end (clamped at the top). */
  lemma AfterLookupFromEnd(h: Hunk, src: seq<string>, b: Chained)
    requires |src| > 0
    requires b.cursor == -1 || b.cursor == |src| - 1
    requires MathMin(b.indexes) == Finite(-1)
    ensures AfterLookup(h, src, b) ==
      if forall i :: 0 <= i < |h.after| ==> h.after[i] == src[|src| - 1]
      then Success(if |src| >= 2 then |src| - 2 else 0)
      else Failure(AnchorMismatch)
  {
    ChainFromEnd(src, h.after, b.cursor);
  }

  /** `tryPatching` as written: the file's lines with the body spliced in. */
  function TryPatching(h: Hunk, src: seq<string>): (r: Result<seq<string>, PatchError>)
    requires h.anchor.Some?
    ensures r.Success? <==> InsertionPoint(h, src).Success?
    ensures r.Failure? ==> r.error == InsertionPoint(h, src).error
    ensures r.Success? ==>
      var k := InsertionPoint(h, src).value;
      r.value == src[..k] + h.body + src[k..]
  {
    match InsertionPoint(h, src)
    case Failure(e) => Failure(e)
    case Success(k) => Success(InsertAt(src, k, h.body))
  }

  /** The evidently intended placement: right after the `before` lines when there
      are some and they all occur in order from the anchor line, otherwise right
      above the `after` lines when there are some and they all occur in order
      from the anchor line; anything else is a mismatch. */
  function InsertionPointIntended(h: Hunk, src: seq<string>): (r: Result<nat, PatchError>)
    requires h.anchor.Some?
    ensures r.Success? ==> r.value <= |src|
  {
    var from := FindIndex(src, h.anchor.value);
    if from == -1 then Failure(AnchorNotFound)
    else
      var b := SearchChain(src, h.before, from);
      if |h.before| > 0 && AllFound(b.indexes) then
        ChainMax(src, h.before, from);
        Success(MathMax(b.indexes).n + 1)
      else
        var a := SearchChain(src, h.after, from);
        if |h.after| > 0 && AllFound(a.indexes) then
          ChainMin(src, h.after, from);
          Success(MathMin(a.indexes).n)
        else Failure(AnchorMismatch)
  }

  /** The leftmost occurrence of `after` from the anchor line: its first line is
      the first line at or after the anchor line equal to `after[0]`, and all of
      `after` occurs in order from there. */
  lemma AfterLeftmost(src: seq<string>, after: seq<string>, from: int)
    requires from >= 0 && |after| > 0
    requires Embeds(src, after, from)
    ensures var c := SearchChain(src, after, from);
      && AllFound(c.indexes)
      && MathMin(c.indexes) == Finite(c.indexes[0])
      && from <= c.indexes[0] < |src|
      && src[c.indexes[0]] == after[0]
      && (forall j :: from <= j < c.indexes[0] ==> src[j] != after[0])
      && Embeds(src, after, c.indexes[0])
  {
    var c := SearchChain(src, after, from);
    SearchChainComplete(src, after, from);
    ChainMin(src, after, from);
    ChainForward(src, after, from);
    var k := c.indexes[0];
    var rest := SearchChain(src, after[1..], k);
    assert c.indexes == [k] + rest.indexes;
    assert k == IndexOf(src, after[0], from);
    assert AllFound(rest.indexes) by {
      forall j | 0 <= j < |rest.indexes| ensures rest.indexes[j] != -1 {
        assert rest.indexes[j] == c.indexes[j + 1];
      }
    }
    SearchChainComplete(src, after[1..], k);
  }

  /** Intended: a mismatch exactly when the anchor is found but neither a
      non-empty `before` nor a non-empty `after` occurs in order from the anchor
      line. */
  lemma IntendedMismatchExactly(h: Hunk, src: seq<string>)
    requires h.anchor.Some?
    ensures InsertionPointIntended(h, src) == Failure(AnchorMismatch) <==>
      && FindIndex(src, h.anchor.value) != -1
      && !(|h.before| > 0 && Embeds(src, h.before, FindIndex(src, h.anchor.value)))
      && !(|h.after| > 0 && Embeds(src, h.after, FindIndex(src, h.anchor.value)))
  {
    var from := FindIndex(src, h.anchor.value);
    if from != -1 {
      SearchChainComplete(src, h.before, from);
      SearchChainComplete(src, h.after, from);
    }
  }

  /** Intended: right after the shortest stretch from the file's start that
      holds `before` in order, when it occurs. */
  lemma IntendedBeforeMatch(h: Hunk, src: seq<string>, m: nat)
    requires h.anchor.Some? && |h.before| > 0
    requires FindIndex(src, h.anchor.value) != -1
    requires Embeds(src, h.before, FindIndex(src, h.anchor.value))
    ensures var r := InsertionPointIntended(h, src);
      var from := FindIndex(src, h.anchor.value);
      && r.Success?
      && InOrderBelow(src, h.before, from, r.value)
      && (m <= |src| && InOrderBelow(src, h.before, from, m) ==> r.value <= m)
  {
    var from := FindIndex(src, h.anchor.value);
    AfterShortestBeforePrefix(src, h.before, from, m);
  }

  /** Intended: otherwise right above the leftmost occurrence of `after` from the
      anchor line. */
  lemma IntendedAfterMatch(h: Hunk, src: seq<string>)
    requires h.anchor.Some? && |h.after| > 0
    requires FindIndex(src, h.anchor.value) != -1
    requires !(|h.before| > 0 && Embeds(src, h.before, FindIndex(src, h.anchor.value)))
    requires Embeds(src, h.after, FindIndex(src, h.anchor.value))
    ensures var r := InsertionPointIntended(h, src);
      var from := FindIndex(src, h.anchor.value);
      && r.Success? && from <= r.value < |src|
      && src[r.value] == h.after[0]
      && (forall j :: from <= j < r.value ==> src[j] != h.after[0])
      && Embeds(src, h.after, r.value)
  {
    var from := FindIndex(src, h.anchor.value);
    SearchChainComplete(src, h.before, from);
    AfterLeftmost(src, h.after, from);
  }

  /** `tryPatching` with the intended placement. */
  function TryPatchingIntended(h: Hunk, src: seq<string>): (r: Result<seq<string>, PatchError>)
    requires h.anchor.Some?
    ensures r.Success? <==> InsertionPointIntended(h, src).Success?
    ensures r.Failure? ==> r.error == InsertionPointIntended(h, src).error
    ensures r.Success? ==>
      var k := InsertionPointIntended(h, src).value;
      r.value == src[..k] + h.body + src[k..]
  {
    match InsertionPointIntended(h, src)
    case Failure(e) => Failure(e)
    case Success(k) => Success(InsertAt(src, k, h.body))
  }
}

=== FILE: resolver_examples.dfy ===
/** Concrete files on which the placement rules of `tryPatching` can be seen:
    a patch of the server's message handler, and the three inputs on which the code as
    written and the intended placement part ways. */
module ResolverExamples {
  import opened Results
  import opened JsString
  import opened JsArray
  import opened Hunks
  import opened Resolver

  /** A server handler file with one message branch, the kind of file the
      CRUD template patches. */
  function HandlerFile(): seq<string> {
    ["updateFromClient ctx now clientMsg state =", "    case clientMsg of", "    OtherMsg x -> noop"]
  }

  /** The renamed hunk of that scenario. */
  function HandlerHunk(anchor: string): Hunk {
    Hunk("src/Server.elm", Some(anchor),
         ["updateFromClient ctx now clientMsg state =", "    case clientMsg of"],
         ["    PostMsg m -> handle m"], [])
  }

  /** The handler file with the new case third. */
  function PatchedHandlerFile(): seq<string> {
    ["updateFromClient ctx now clientMsg state =", "    case clientMsg of",
     "    PostMsg m -> handle m", "    OtherMsg x -> noop"]
  }

  /** Patching the handler: the body line lands third, right after the two
      matched `before` lines, both as written and as intended. */
  lemma HandlerPatched()
    ensures TryPatching(HandlerHunk("updateFromClient"), HandlerFile()) == Success(PatchedHandlerFile())
    ensures TryPatchingIntended(HandlerHunk("updateFromClient"), HandlerFile()) ==
      TryPatching(HandlerHunk("updateFromClient"), HandlerFile())
  {
    var src := HandlerFile();
    var h := HandlerHunk("updateFromClient");
    assert StartsWith(src[0], "updateFromClient");
    assert FindIndex(src, "updateFromClient") == 0;
    assert IndexOf(src, h.before[0], 0) == 0;
    assert IndexOf(src, h.before[1], 0) == 1 by {
      assert src[0] != h.before[1];
    }
    var b := SearchChain(src, h.before, 0);
    assert b.indexes == [0, 1];
    assert MathMax(b.indexes) == Finite(1);
    assert InsertionPoint(h, src) == Success(2);
    assert InsertionPointIntended(h, src) == Success(2);
    assert src[..2] + h.body + src[2..] == PatchedHandlerFile();
  }

  /** An anchor no line starts with fails with `AnchorNotFound`. */
  lemma MissingAnchorFails()
    ensures TryPatching(HandlerHunk("doesNotExist"), HandlerFile()) == Failure(AnchorNotFound)
    ensures TryPatchingIntended(HandlerHunk("doesNotExist"), HandlerFile()) == Failure(AnchorNotFound)
  {
    var src := HandlerFile();
    forall i | 0 <= i < |src| ensures !StartsWith(src[i], "doesNotExist") {
      assert src[i][0] != 'd';
    }
    AnchorNotFoundExactly(HandlerHunk("doesNotExist"), src);
  }

  /** A small function body used by the three divergence examples. */
  function Body(): seq<string> {
    ["f x =", "  y", "  z"]
  }

  /** Lines 101-102: when the `before` lines miss and the `after` lines are found,
      the position comes from the `before` indexes (`Math.min` is -1, minus one is
      -2, which `splice` reads as two lines above the end), so the body lands above
      `  y` instead of right above the `after` line `  z`. */
  lemma AfterBranchMisplaces()
    ensures var h := Hunk("M.elm", Some("f"), ["nope"], ["  w"], ["  z"]);
      && InsertionPoint(h, Body()) == Success(1)
      && InsertionPointIntended(h, Body()) == Success(2)
  {
    var src := Body();
    var h := Hunk("M.elm", Some("f"), ["nope"], ["  w"], ["  z"]);
    assert StartsWith(src[0], "f");
    assert FindIndex(src, "f") == 0;
    assert !Embeds(src, h.before, 0) by {
      SearchChainComplete(src, h.before, 0);
      assert IndexOf(src, "nope", 0) == -1;
    }
    assert h.after[0] == src[2];
    WrittenBeforeMiss(h, src);
    assert IndexOf(src, "  z", 0) == 2;
    assert SearchChain(src, h.after, 0).indexes == [2];
    assert MathMin([2]) == Finite(2);
    assert SearchChain(src, h.before, 0).indexes == [-1];
  }

  /** Lines 92-93: with no `before` lines the lookup trivially succeeds and
      `Math.max()` is -Infinity, so the body goes to the top of the file, above
      the module header, instead of above the `after` line under the anchor. */
  lemma EmptyBeforeAtTop()
    ensures var h := Hunk("M.elm", Some("f"), [], ["  w"], ["  y"]);
      var src := ["module M", "f x =", "  y"];
      && InsertionPoint(h, src) == Success(0)
      && InsertionPointIntended(h, src) == Success(2)
  {
    var src := ["module M", "f x =", "  y"];
    var h := Hunk("M.elm", Some("f"), [], ["  w"], ["  y"]);
    assert !StartsWith(src[0], "f") by {
      assert src[0][0] != 'f';
    }
    assert StartsWith(src[1], "f");
    assert FindIndex(src, "f") == 1;
    WrittenEmptyBefore(h, src);
    assert IndexOf(src, "  y", 1) == 2;
    assert SearchChain(src, h.after, 1).indexes == [2];
    assert MathMin([2]) == Finite(2);
  }

  /** Lines 89 and 98: a missed `before` line leaves `fromIndex` at -1, and the
      `after` lookup then sees only the last line, so an `after` line that is
      present just below the anchor is not found and the patch fails. */
  lemma MissCursor()
    ensures var h := Hunk("M.elm", Some("f"), ["nope"], ["  w"], ["  y"]);
      && InsertionPoint(h, Body()) == Failure(AnchorMismatch)
      && InsertionPointIntended(h, Body()) == Success(1)
  {
    var src := Body();
    var h := Hunk("M.elm", Some("f"), ["nope"], ["  w"], ["  y"]);
    assert StartsWith(src[0], "f");
    assert FindIndex(src, "f") == 0;
    assert !Embeds(src, h.before, 0) by {
      SearchChainComplete(src, h.before, 0);
      assert IndexOf(src, "nope", 0) == -1;
    }
    assert h.after[0] != src[2];
    WrittenBeforeMiss(h, src);
    assert IndexOf(src, "  y", 0) == 1;
    assert SearchChain(src, h.after, 0).indexes == [1];
    assert MathMin([1]) == Finite(1);
    assert SearchChain(src, h.before, 0).indexes == [-1];
  }
}

=== FILE: results.dfy ===
/** Option and Result values that stand in for JavaScript's `undefined`
    and for the thrown errors and `process.exit` calls of the engine. */
module Results {

  /** A value that may be missing (`undefined` in the original program). */
  datatype Option<+T> = None | Some(value: T)

  /** The outcome of a step that can fail with an error of type `E`. */
  datatype Result<+T, +E> = Success(value: T) | Failure(error: E)
}

=== FILE: template_shape.dfy ===
/** What the parse loop produces for a template laid out as a unified diff:
    file blocks opened by a `diff ` line, each with a `+++ ` target header and
    a run of `@@ ` hunks. The hunks reach `apply` one per hunk header, in
    template order, with the path renamed once more by every hunk header. */
module TemplateShape {
  import opened JsString
  import opened Renamer
  import opened HunkHeader
  import opened Hunks
  import opened TemplateParser

  /** One hunk of a template: its `@@ ` header and the lines under it. */
  datatype TemplateHunk = TemplateHunk(header: string, lines: seq<string>)

  /** One file block: the lines opening it (`diff ...`, `index ...`, `--- ...`),
      its `+++ ` target header and its hunks. */
  datatype TemplateFile = TemplateFile(preamble: seq<string>, target: string, hunks: seq<TemplateHunk>)

  /** A line of a block's opening after the `diff ` line: not an added line,
      not a hunk header and not another block separator. */
  predicate Quiet(line: string) {
    !StartsWith(line, "+") && !StartsWith(line, "@@ ") && !StartsWith(line, "diff ")
  }

  predicate WellFormedHunk(t: TemplateHunk) {
    && StartsWith(t.header, "@@ ")
    && forall i :: 0 <= i < |t.lines| ==> HunkLine(t.lines[i])
  }

  predicate WellFormedFile(f: TemplateFile) {
    && |f.preamble| > 0
    && StartsWith(f.preamble[0], "diff ")
    && (forall i :: 1 <= i < |f.preamble| ==> Quiet(f.preamble[i]))
    && StartsWith(f.target, "+++ ")
    && forall k :: 0 <= k < |f.hunks| ==> WellFormedHunk(f.hunks[k])
  }

  predicate WellFormed(files: seq<TemplateFile>) {
    forall i :: 0 <= i < |files| ==> WellFormedFile(files[i])
  }

  function HunksText(ts: seq<TemplateHunk>): seq<string>
    decreases |ts|
  {
    if |ts| == 0 then [] else [ts[0].header] + ts[0].lines + HunksText(ts[1..])
  }

  function FileText(f: TemplateFile): seq<string> {
    f.preamble + [f.target] + HunksText(f.hunks)
  }

  /** The template's lines. */
  function TemplateText(files: seq<TemplateFile>): seq<string>
    decreases |files|
  {
    if |files| == 0 then [] else FileText(files[0]) + TemplateText(files[1..])
  }

  /** The hunk record expected for a template hunk under file path `path`. */
  function ExpectedHunk(names: Names, path: string, t: TemplateHunk): Hunk {
    var f := FirstAdded(t.lines);
    Hunk(path, FunctionLineFrom(t.header),
         ContextLines(t.lines[..f]), AddedLines(names, t.lines), ContextLines(t.lines[f..]))
  }

  /** The hunks expected for a run of hunk headers: each renames the path again. */
  function ExpectedHunks(names: Names, path: string, ts: seq<TemplateHunk>): seq<Hunk>
    decreases |ts|
  {
    if |ts| == 0 then []
    else
      var p := Rename(names, path);
      [ExpectedHunk(names, p, ts[0])] + ExpectedHunks(names, p, ts[1..])
  }

  /** The hunks expected for a file: its target path is renamed by the `+++ `
      line and then by each hunk header. A file without hunks yields none. */
  function ExpectedFile(names: Names, f: TemplateFile): seq<Hunk> {
    ExpectedHunks(names, Rename(names, FilepathFrom(f.target)), f.hunks)
  }

  function Expected(names: Names, files: seq<TemplateFile>): seq<Hunk>
    decreases |files|
  {
    if |files| == 0 then [] else ExpectedFile(names, files[0]) + Expected(names, files[1..])
  }

  /** The hunks a run has applied plus the one still pending. */
  function Settled(r: Parsed): seq<Hunk> {
    r.hunks + Pending(r.last)
  }

  /** Quiet lines apply nothing and never crash, from any state. */
  lemma {:induction false} QuietLinesApplyNothing(names: Names, st: ParseState, lines: seq<string>)
    requires forall i :: 0 <= i < |lines| ==> Quiet(lines[i])
    ensures ParseFrom(names, st, lines).hunks == []
    ensures !ParseFrom(names, st, lines).crashed
    decreases |lines|
  {
    if |lines| > 0 {
      assert Quiet(lines[0]);
      MarkerFacts(lines[0]);
      match Step(names, st, lines[0])
      case Crash =>
      case Next(st', out) =>
        QuietLinesApplyNothing(names, st', lines[1..]);
    }
  }

  /** A hunk header alone applies the pending hunk and opens an empty one under
      the renamed path. */
  lemma HeaderParsed(names: Names, st: ParseState, path: string, header: string)
    requires st == FileOnly(path) || (st.InHunk? && st.hunk.path == path)
    requires StartsWith(header, "@@ ")
    ensures ParseFrom(names, st, [header]) ==
      Parsed(Pending(st), false, InHunk(Hunk(Rename(names, path), FunctionLineFrom(header), [], [], [])))
  {
    MarkerFacts(header);
    assert Step(names, st, header) ==
      Next(InHunk(Hunk(Rename(names, path), FunctionLineFrom(header), [], [], [])), Pending(st));
    ParseOneLine(names, st, header);
  }

  /** A hunk header followed by its lines, read from a state holding path `path`:
      the pending hunk is applied and the new one is fully bucketed. */
  lemma OneHunk(names: Names, st: ParseState, path: string, t: TemplateHunk)
    requires st == FileOnly(path) || (st.InHunk? && st.hunk.path == path)
    requires WellFormedHunk(t)
    ensures ParseFrom(names, st, [t.header] + t.lines) ==
      Parsed(Pending(st), false, InHunk(ExpectedHunk(names, Rename(names, path), t)))
  {
    var h0 := Hunk(Rename(names, path), FunctionLineFrom(t.header), [], [], []);
    HeaderParsed(names, st, path, t.header);
    ParseFromAppend(names, st, [t.header], t.lines);
    HunkLinesBucketed(names, h0, t.lines);
    var f := FirstAdded(t.lines);
    assert [] + ContextLines(t.lines[..f]) == ContextLines(t.lines[..f]);
    assert [] + ContextLines(t.lines[f..]) == ContextLines(t.lines[f..]);
  }

  /** A run of hunks read from a state holding path `path`. */
  lemma {:induction false} HunksParsed(names: Names, st: ParseState, path: string, ts: seq<TemplateHunk>)
    requires st == FileOnly(path) || (st.InHunk? && st.hunk.path == path)
    requires forall k :: 0 <= k < |ts| ==> WellFormedHunk(ts[k])
    ensures !ParseFrom(names, st, HunksText(ts)).crashed
    ensures Settled(ParseFrom(names, st, HunksText(ts))) == Pending(st) + ExpectedHunks(names, path, ts)
    decreases |ts|
  {
    if |ts| == 0 {
      assert ParseFrom(names, st, []) == Parsed([], false, st);
      assert [] + Pending(st) == Pending(st) + [];
    } else {
      var t := ts[0];
      var p := Rename(names, path);
      var e := ExpectedHunk(names, p, t);
      var a := [t.header] + t.lines;
      var b := HunksText(ts[1..]);
      assert HunksText(ts) == a + b;
      assert WellFormedHunk(t);
      OneHunk(names, st, path, t);
      assert Settled(ParseFrom(names, st, a)) == Pending(st) + [e];
      HunksParsed(names, InHunk(e), p, ts[1..]);
      SettledChain(names, st, a, b, [e], ExpectedHunks(names, p, ts[1..]));
    }
  }

  /** Two stretches that each settle cleanly settle cleanly together. */
  lemma SettledChain(names: Names, st: ParseState, a: seq<string>, b: seq<string>,
                     x: seq<Hunk>, y: seq<Hunk>)
    requires !ParseFrom(names, st, a).crashed
    requires Settled(ParseFrom(names, st, a)) == Pending(st) + x
    requires !ParseFrom(names, ParseFrom(names, st, a).last, b).crashed
    requires Settled(ParseFrom(names, ParseFrom(names, st, a).last, b)) ==
      Pending(ParseFrom(names, st, a).last) + y
    ensures !ParseFrom(names, st, a + b).crashed
    ensures Settled(ParseFrom(names, st, a + b)) == Pending(st) + (x + y)
  {
    ParseFromAppend(names, st, a, b);
    var ra := ParseFrom(names, st, a);
    var rb := ParseFrom(names, ra.last, b);
    calc {
      Settled(ParseFrom(names, st, a + b));
      (ra.hunks + rb.hunks) + Pending(rb.last);
      { Regroup(ra.hunks, rb.hunks, Pending(rb.last)); }
      ra.hunks + (Pending(ra.last) + y);
      { Regroup(ra.hunks, Pending(ra.last), y); }
      (Pending(st) + x) + y;
      { Regroup(Pending(st), x, y); }
      Pending(st) + (x + y);
    }
  }

  /** A `diff ` line alone applies the pending hunk and never crashes. */
  lemma DiffParsed(names: Names, st: ParseState, line: string)
    requires StartsWith(line, "diff ")
    ensures ParseFrom(names, st, [line]).hunks == Pending(st)
    ensures !ParseFrom(names, st, [line]).crashed
  {
    MarkerFacts(line);
    ParseOneLine(names, st, line);
  }

  /** A `+++ ` line alone applies nothing and leaves only the renamed target
      path, whatever came before it. */
  lemma TargetParsed(names: Names, st: ParseState, line: string)
    requires StartsWith(line, "+++ ")
    ensures ParseFrom(names, st, [line]) == Parsed([], false, FileOnly(Rename(names, FilepathFrom(line))))
  {
    MarkerFacts(line);
    ParseOneLine(names, st, line);
  }

  /** A block's opening: the `diff ` line applies the pending hunk, the rest of
      the opening applies nothing, and the `+++ ` line leaves only the renamed
      target path. */
  lemma OpeningParsed(names: Names, st: ParseState, f: TemplateFile)
    requires WellFormedFile(f)
    ensures ParseFrom(names, st, f.preamble + [f.target]) ==
      Parsed(Pending(st), false, FileOnly(Rename(names, FilepathFrom(f.target))))
  {
    var diffLine := f.preamble[0];
    var quiet := f.preamble[1..];
    assert f.preamble + [f.target] == [diffLine] + (quiet + [f.target]) by {
      ConsAppend(f.preamble, [f.target]);
    }
    ParseFromAppend(names, st, [diffLine], quiet + [f.target]);
    DiffParsed(names, st, diffLine);
    var r1 := ParseFrom(names, st, [diffLine]);
    ParseFromAppend(names, r1.last, quiet, [f.target]);
    QuietLinesApplyNothing(names, r1.last, quiet);
    var r2 := ParseFrom(names, r1.last, quiet);
    TargetParsed(names, r2.last, f.target);
    assert Pending(st) + [] == Pending(st);
  }

  /** The hunks of a file block after an opening that left the parser at the
      file path `path` with nothing pending. */
  lemma FileBodyParsed(names: Names, st: ParseState, opening: seq<string>, path: string,
                       ts: seq<TemplateHunk>)
    requires ParseFrom(names, st, opening) == Parsed(Pending(st), false, FileOnly(path))
    requires forall k :: 0 <= k < |ts| ==> WellFormedHunk(ts[k])
    ensures !ParseFrom(names, st, opening + HunksText(ts)).crashed
    ensures Settled(ParseFrom(names, st, opening + HunksText(ts))) ==
      Pending(st) + ExpectedHunks(names, path, ts)
  {
    assert Settled(ParseFrom(names, st, opening)) == Pending(st) + [] by {
      assert Pending(FileOnly(path)) == [];
    }
    HunksParsed(names, FileOnly(path), path, ts);
    SettledChain(names, st, opening, HunksText(ts), [], ExpectedHunks(names, path, ts));
    assert [] + ExpectedHunks(names, path, ts) == ExpectedHunks(names, path, ts);
  }

  /** One file block: its opening and then its hunks. */
  lemma FileParsed(names: Names, st: ParseState, f: TemplateFile)
    requires WellFormedFile(f)
    ensures !ParseFrom(names, st, FileText(f)).crashed
    ensures Settled(ParseFrom(names, st, FileText(f))) == Pending(st) + ExpectedFile(names, f)
  {
    var opening := f.preamble + [f.target];
    assert FileText(f) == opening + HunksText(f.hunks);
    OpeningParsed(names, st, f);
    FileBodyParsed(names, st, opening, Rename(names, FilepathFrom(f.target)), f.hunks);
  }

  /** The hunks of a whole template, read from any state. */
  lemma {:induction false} FilesParsed(names: Names, st: ParseState, files: seq<TemplateFile>)
    requires WellFormed(files)
    ensures !ParseFrom(names, st, TemplateText(files)).crashed
    ensures Settled(ParseFrom(names, st, TemplateText(files))) == Pending(st) + Expected(names, files)
    decreases |files|
  {
    if |files| > 0 {
      assert WellFormedFile(files[0]);
      FileParsed(names, st, files[0]);
      var ra := ParseFrom(names, st, FileText(files[0]));
      FilesParsed(names, ra.last, files[1..]);
      SettledChain(names, st, FileText(files[0]), TemplateText(files[1..]),
                   ExpectedFile(names, files[0]), Expected(names, files[1..]));
    } else {
      assert ParseFrom(names, st, []) == Parsed([], false, st);
      assert [] + Pending(st) == Pending(st) + [];
    }
  }

  /** Ordering: for a template laid out as file blocks, the program applies exactly
      one hunk per hunk header, in template order, each bucketed as
      `HunkLinesBucketed` states, with the path of a file's k-th hunk renamed k+2
      times; a file block without hunks applies nothing, and nothing crashes. */
  lemma TemplateHunksInOrder(names: Names, files: seq<TemplateFile>)
    requires WellFormed(files)
    ensures Parse(names, TemplateText(files)) == ParseResult(Expected(names, files), false)
  {
    FilesParsed(names, Blank, files);
  }
}
